=== FILE: README.md ===
# Store back end: users, sessions and products

This project models the HTTP back end of a small shop. It is a Fastify
server over a Prisma database with bcrypt password hashes and an S3 bucket
for product photos. Two groups of routes are modelled:

- `/users` registers, logs in and logs out. These routes create users and
  create or delete 7-day sessions.
- `/products` creates, lists, updates and deletes products, and uploads and
  deletes product photos. Every products route first authenticates the
  `authorization: Basic <token>` header against the session table.

The database is one immutable `Store`:

- users, in table order;
- sessions, keyed by their public token;
- products, in table order;
- photo rows, keyed by id;
- the set of bucket keys.

Every operation is a pure function from a store to a `Step`, which holds a
result and the next store. The clock, fresh ids and tokens, generated photo
names, bcrypt and the e-mail format check come in through an `Env` value.
Their freshness is a precondition.

The modules follow the program's structure:

- `Errors` holds the error tables.
- `Text` covers the JavaScript string operations used: `split`, `indexOf`,
  `replace`, `includes` and digit parsing.
- `Entities` defines the store.
- `UsersService` and `ProductsService` hold the service layers.
- `Http` and `Schemas` model the request shapes and the JSON schemas,
  including the custom `decimals` keyword.
- `AuthMiddleware` and `ProductsMiddleware` hold the pre-handlers.
- `PreHandlers` runs a pre-handler chain.
- `UsersController` and `ProductsController` hold the routes.
- `Server` holds the error handler and the dispatcher.
- `Scenarios` strings requests together end to end.

## Model

| member | source | states |
|---|---|---|
| UsersService.CountUsersWithEmail | http/src/components/users/service.js:35-38 | The e-mail count is positive exactly when some user has that e-mail, so register refuses exactly the e-mails in use. |
| UsersService.FirstUserFrom | http/src/components/users/service.js:54-57 | `findFirst` returns the first user, in table order, that the filter selects. With no e-mail filter, it returns the first user of the table. |
| UsersService.GenLoginInfo | http/src/components/users/service.js:9-19 | Adds exactly one session, under the new token, for the given user. The session expires 7 days after now, and the reply carries the same expiry. All other sessions and all other tables are kept. |
| UsersService.Register | http/src/components/users/service.js:34-46 | An e-mail already in use gives `emailInUse` and leaves the store unchanged. Otherwise the user is appended with the hashed password, and one 7-day session is opened for that user. |
| UsersService.LogIn | http/src/components/users/service.js:53-64 | Fails with `userDoesNotExist` when no user matches. The user checked is the first one `findFirst` returns. A missing password is an unexpected error, and a password that does not match that user's hash gives `wrongPassword`. On success it opens a 7-day session for that same user and returns no e-mail. On failure the store is unchanged. |
| UsersService.LogOut | http/src/components/users/service.js:69-73 | Deletes exactly the given session. It succeeds exactly when that session exists; otherwise it gives a not-found error and changes nothing. |
| UsersService.ValidateAuth | http/src/components/users/service.js:78-91 | Passes exactly when the session exists and is not expired (a strict `<` on the expiry). An unknown token gives `tokenDoesNotExist`. An expired session gives `tokenExpired` and is deleted. |
| UsersService.ExpiredTokenReportedOnce | http/src/components/users/service.js:84-90 | An expired token is reported as `tokenExpired` once. After that it is `tokenDoesNotExist`. |
| UsersService.LogOutRevokesToken | http/src/components/users/service.js:69-91 | Once logged out, a token no longer authenticates. |
| UsersService.RegisteredSessionLifetime | http/src/components/users/service.js:10 | A token issued at registration authenticates up to 7 days later and has expired after that. |
| UsersService.RegisterThenLogIn | http/src/components/users/service.js:34-64 | After registering, logging in with the same credentials succeeds. It opens a second session for the same user and keeps the first. |
| UsersService.RegisterKeepsValid | http/src/components/users/service.js:34-46 | Registering keeps ids and e-mails unique and every session pointing at an existing user. |
| UsersService.LogInKeepsValid | http/src/components/users/service.js:53-64 | Logging in keeps the store invariant. |
| UsersService.LogOutKeepsValid | http/src/components/users/service.js:69-73 | Logging out keeps the store invariant. |
| UsersService.ValidateAuthKeepsValid | http/src/components/users/service.js:78-91 | Authentication keeps the store invariant. |
| AuthMiddleware.ValidateAuthMiddleware | http/src/components/users/middleware.js:6-8 | Extracts the token from the header and authenticates it. It passes exactly for a live session and otherwise fails with one of the two token errors. At most it drops the expired session. A missing header is an unexpected error. |
| AuthMiddleware.MiddlewareIsValidateAuth | http/src/components/users/middleware.js:6-8 | The middleware is `validateAuth` applied to the header with its first `Basic ` removed. |
| AuthMiddleware.ExtractTokenOfScheme | http/src/components/users/middleware.js:7 | Removing the first `Basic ` from `Basic <t>` gives back `t`. |
| AuthMiddleware.WellFormedHeaderToken | http/src/utils/loaders.js:92-102 | A header that matches the schema pattern yields its last 36 characters as the token. |
| Text.Split | http/src/utils/loaders.js:30 | `split` yields at least one part, and no part contains the separator. |
| Text.JoinSplit | http/src/components/products/service.js:82 | Joining the parts of `split` with the separator gives back the string. |
| Text.SplitWithoutSeparator | http/src/components/products/service.js:82 | A string without the separator splits into itself. |
| Text.SplitAtFirstSeparator | http/src/utils/loaders.js:30 | The part before the first separator is the first part, and the rest splits on its own. |
| Text.SplitSnocSeparator | http/src/components/products/service.js:82 | Appending a separator appends an empty last part. |
| Text.SplitSnocOther | http/src/components/products/service.js:82 | Appending any other character extends the last part. |
| Text.IndexOfFrom | http/src/utils/loaders.js:29 | `indexOf` finds the first occurrence at or after the start, or reports that there is none. |
| Text.ContainsIffOccurs | http/src/components/products/service.js:36 | `contains` holds exactly when the query occurs at some position of the name. |
| Text.RemoveFirst | http/src/components/users/middleware.js:7 | `replace` with a string pattern removes only the first occurrence and keeps everything around it. |
| Text.RemoveFirstOfPrefixed | http/src/components/users/controller.js:53 | Removing a prefix pattern leaves the rest. |
| Text.LexTotal | http/src/components/products/service.js:37 | Ordering names by character codes is total. |
| Text.LeadingNonZeroIsPositive | http/src/components/products/controller.js:57 | Digits with a non-zero lead have a value of at least 1. |
| Schemas.SplitAtDot | http/src/utils/loaders.js:29-30 | When the string has a dot, `split('.')[1]` exists and is the text after the first dot, up to the next dot. |
| Schemas.FirstSegmentIsUpToDot | http/src/utils/loaders.js:30 | The first `split('.')` segment is the text before the first dot, or the whole string. |
| Schemas.DecimalsMeaning | http/src/utils/loaders.js:26-32 | `decimals` accepts every number written without a dot. Otherwise it accepts exactly when the text between the first and the second dot is at most `maxDecimals` long. |
| Schemas.DecimalsOfPlainNotation | http/src/utils/loaders.js:26-32 | For `whole.frac`, `decimals` accepts exactly when `frac` has at most `maxDecimals` digits. |
| Schemas.ProductNumbersMeaning | http/src/components/products/schemas.js:7-13 | A price is accepted exactly when it is non-negative with at most two decimals. A tax percentage is accepted exactly when it lies in 0..100 with at most two decimals. |
| Schemas.ProductFieldLimits | http/src/components/products/schemas.js:1-17 | The product schema refuses a name over 32 characters, a negative price and a tax percentage outside 0..100. It never constrains the description or the two flags, and accepts a body with no field. |
| Schemas.DecimalsExamples | http/src/utils/loaders.js:26-32 | With `decimals: 2`, `12.5` and `7` pass and `1.999` is refused. |
| Schemas.PagePatternIsPositive | http/src/components/products/controller.js:57 | A page that matches `^[1-9][0-9]*$` converts to a number of at least 1. |
| Schemas.IdPatternIsNumber | http/src/components/products/controller.js:99 | An id that matches `^[0-9]+$` converts with `+` to its decimal value. A leading zero changes nothing: `/products/007` names product 7. |
| Schemas.EveryIdHasAPath | http/src/components/products/controller.js:99 | Every id has a path segment: its decimal text matches `^[0-9]+$` and converts back to the id. |
| ProductsService.CreateProduct | http/src/components/products/service.js:20-25 | Appends exactly one product with the given info under the fresh id, returns that id, and leaves the other rows and tables alone. |
| ProductsService.PrecedesTotal | http/src/components/products/service.js:37 | For every sort key and direction, any two products are ordered one way or the other. |
| ProductsService.Insert | http/src/components/products/service.js:37 | Inserting into a sorted list keeps it sorted and adds exactly the one product. |
| ProductsService.Sort | http/src/components/products/service.js:37 | The `orderBy` result is sorted by the key and direction, and is a permutation of its input. |
| ProductsService.Matching | http/src/components/products/service.js:36 | Keeps exactly the products whose name contains the query, each as many times as it is stored. Keeps every product when no query is given. |
| ProductsService.MatchingAppend | http/src/components/products/service.js:36 | The filter works row by row: filtering two tables joined end to end is filtering each and joining the results in order. |
| ProductsService.OrderedIsSortedPermutation | http/src/components/products/service.js:35-37 | The ordered list is sorted and is a permutation of the matching rows. |
| ProductsService.GetProducts | http/src/components/products/service.js:34-43 | A page below 1 is an error (a negative skip). Otherwise the page is the window of at most 25 rows after skipping 25 × (page − 1), each cut to id, name and price. The window is full when enough rows follow, and empty past the end. |
| ProductsService.EveryMatchOnItsPage | http/src/components/products/service.js:38-39 | Every matching product appears on page ⌊i/25⌋+1, at position i mod 25. |
| ProductsService.ListedItemsMatch | http/src/components/products/service.js:35-41 | Every listed item is a stored product that the query keeps. |
| ProductsService.PatchRows | http/src/components/products/service.js:51-54 | Patches exactly the rows with the id and keeps every other row and every id. |
| ProductsService.UpdateProduct | http/src/components/products/service.js:50-55 | Succeeds exactly when the product exists. It overwrites only the supplied fields of that product and changes nothing else. A missing product is a not-found error that leaves the store unchanged. |
| ProductsService.PatchIdempotent | http/src/components/products/service.js:50-55 | Applying the same update twice equals applying it once. |
| ProductsService.PatchExtremes | http/src/components/products/service.js:50-55 | An empty patch changes nothing. A patch that carries every field replaces the info entirely. |
| ProductsService.RemoveRows | http/src/components/products/service.js:62-64 | Removes exactly the rows with the id. Every other row stays, as many times as it was stored. |
| ProductsService.RemoveRowsKeepsUniqueIds | http/src/components/products/service.js:61-65 | Removing rows keeps the remaining product ids distinct. |
| ProductsService.DeleteProduct | http/src/components/products/service.js:61-65 | Succeeds exactly when the product exists. Afterwards no product has the id, and the table is exactly `RemoveRows` of the old one: every other row stays, in table order and as often as it was stored. A missing product is a not-found error that changes nothing. |
| ProductsService.RemoveAbsentRows | http/src/components/products/service.js:61-65 | Deleting an id that is not present leaves the rows unchanged. |
| ProductsService.RemoveRowsAppend | http/src/components/products/service.js:61-65 | Deleting distributes over appending rows. |
| ProductsService.CreateThenDeleteRestores | http/src/components/products/service.js:20-65 | Creating a product and then deleting it restores the store. |
| ProductsService.CountProducts | http/src/components/products/service.js:72 | The count is positive exactly when a product has the id. |
| ProductsService.ProductExists | http/src/components/products/service.js:71-74 | Holds exactly when some product row has the id. |
| ProductsService.CountPhotos | http/src/components/products/service.js:122 | The count is positive exactly when a photo row has the id, and at most one row does. |
| ProductsService.PhotoExists | http/src/components/products/service.js:121-124 | Holds exactly when a photo row has the id. |
| ProductsService.ExtensionIsSuffixAfterLastDot | http/src/components/products/service.js:82 | `split('.').pop()` is the dot-free suffix after the last dot, or the whole name when there is no dot. |
| ProductsService.ExtensionWithoutDot | http/src/components/products/service.js:82 | A name without a dot is its own extension. |
| ProductsService.ExtensionAfterLastDot | http/src/components/products/service.js:82 | `base.ext` has extension `ext` whatever dots `base` holds. |
| ProductsService.UploadPhoto | http/src/components/products/service.js:81-98 | Adds exactly one photo row under the fresh id, with the product id, the generated name and the file's extension. Stores the blob under `name.extension` and returns the new id. |
| ProductsService.DeletePhoto | http/src/components/products/service.js:103-115 | Succeeds exactly when the photo exists. It removes that row and its `name.extension` blob. A missing photo is a not-found error that changes nothing. |
| ProductsService.UploadThenDeleteRestores | http/src/components/products/service.js:81-115 | Uploading a photo and then deleting it restores the store. |
| ProductsService.CreateProductKeepsValid | http/src/components/products/service.js:20-25 | Creating a product under a fresh id keeps product ids unique and the rest of the store invariant. |
| ProductsService.UpdateProductKeepsValid | http/src/components/products/service.js:50-55 | Updating a product keeps the store invariant. No id changes. |
| ProductsService.DeleteProductKeepsValid | http/src/components/products/service.js:61-65 | Deleting a product keeps the store invariant. |
| ProductsService.PhotoOperationsKeepValid | http/src/components/products/service.js:81-115 | Uploading a photo under a fresh id, and deleting a photo, keep the store invariant. |
| ProductsMiddleware.ValidateProductExistence | http/src/components/products/middleware.js:9-21 | Passes exactly when the value at the location converts with `+` to an id that names a product. Otherwise it fails with `productDoesNotExist`. It never writes. |
| ProductsMiddleware.ValidateProductPhotoExistence | http/src/components/products/middleware.js:27-39 | Passes exactly when the value converts to the id of a photo row. Otherwise it fails with `productPhotoDoesNotExist`. |
| ProductsMiddleware.ExistenceReadsOnlyItsLocation | http/src/components/products/middleware.js:14 | The checks depend on the request only through the configured location and property. |
| PreHandlers.RunCheck | http/src/components/products/controller.js:111-114 | A pre-handler at most drops a session, and only the authentication check can do that. A passing check leaves the store unchanged. |
| PreHandlers.RunChain | http/src/components/products/controller.js:207-211 | An empty chain passes. A failing first check is the outcome. The chain at most drops sessions, and a passing chain leaves the store unchanged. |
| PreHandlers.ChainPassesIffAllPass | http/src/components/products/controller.js:207-211 | A chain passes exactly when every one of its checks passes on the request's store. |
| PreHandlers.ChainStopsAtFirstFailure | http/src/components/products/controller.js:207-211 | The first failing check decides the outcome, error and store alike. The checks after it do not run. |
| PreHandlers.ChainAppend | http/src/components/products/controller.js:207-211 | Running `a + b` is running `a`, then running `b` when `a` passed. |
| UsersController.PreHandlerList | http/src/components/users/controller.js:42-56 | Only log-out authenticates first. |
| UsersController.LogInSchemaAsWritten | http/src/components/users/controller.js:28-30 | The log-in schema as written accepts every credentials body, including one with no e-mail or a short password. |
| UsersController.LogInSchemaAsWrittenSkipsLimits | http/src/components/users/controller.js:28-30 | A three-character password passes the schema as written but not `authReqBody`. |
| UsersController.LogInAsWritten | http/src/components/users/controller.js:24-40 | The log-in route as written, without `authReqBody` validation. A non-credentials body is refused before the service runs. Any credentials body, even one without an e-mail or with a short password, goes straight to `logIn`: the route has `logIn`'s store and error, and a 200 with its login info on success. |
| UsersController.LogInWithoutEmailPicksFirstUser | http/src/components/users/controller.js:28-39 | As written, a log-in with no e-mail and the first user's password opens a session for the first user. |
| UsersController.LogInSessionBelongsToNamedUser | http/src/utils/loaders.js:74-82 | With `authReqBody` enforced, a successful log-in names an e-mail, and its session belongs to a user with that e-mail. |
| UsersController.Handler | http/src/components/users/controller.js:19-55 | Register and log-in reply 200, and log-in has exactly `logIn`'s store and error. Log-out replies 204 and deletes the session named by the header. A failing handler leaves the store unchanged. |
| UsersController.Run | http/src/components/users/controller.js:51 | A failing pre-handler's error and store are the route's result. When the pre-handlers pass, the outcome is exactly the handler's on the unchanged store. |
| UsersController.Handle | http/src/components/users/controller.js:8-56 | A request that fails its schema is refused before anything touches the store. A failed request at most drops sessions. A success replies 200 or 204 and is never an error body. |
| UsersController.LogOutValidatesFirst | http/src/components/users/controller.js:42-56 | An unknown token gives `tokenDoesNotExist` and changes nothing. An expired one gives `tokenExpired` and is deleted. A live one replies 204 and is deleted. |
| UsersController.RegisterCallsServiceDirectly | http/src/components/users/controller.js:8-22 | A body that passes `authReqBody` is passed to register unchanged. The route replies 200 with the login info, or with the service's error. |
| UsersController.LogInCallsServiceDirectly | http/src/components/users/controller.js:24-40 | With `authReqBody` enforced, a valid log-in body is passed to `logIn` unchanged, with no pre-handler. The route replies 200 with the login info, or with the service's error. |
| UsersController.Validate | http/src/components/users/controller.js:8-48 | Register, and log-in with its schema corrected, pass exactly the bodies `authReqBody` accepts. Log-out passes exactly the headers `validateAuthHeaders` accepts. A failure is a 400 validation error. |
| UsersController.CredentialRoutesCheckAuthReqBody | http/src/utils/loaders.js:74-82 | Register and log-in refuse a body that fails `authReqBody` with a 400 and leave the store unchanged. Examples are a password under 8 or over 32 characters, a missing field, or a malformed e-mail. |
| ProductsController.PreHandlerList | http/src/components/products/controller.js:42 | Authentication is always first. Every `/:productId` route then checks the product. Only photo deletion also checks the photo. |
| ProductsController.Validate | http/src/components/products/controller.js:20-206 | A request passes exactly when params, body, querystring and headers all pass their schemas. A failure is a 400 validation error. |
| ProductsController.Handler | http/src/components/products/controller.js:43-215 | Creation replies 200 with the fresh product id and appends the product built from the body. Listing replies 200 with the `getProducts` page for the query's page number, `sort`, `sortBy` and `query`, and changes nothing. Photo upload replies 200 with the fresh photo id. Update, delete and photo delete reply 204, succeed exactly when the row exists, and leave the service's store. A failing handler leaves the store unchanged. |
| ProductsController.Handle | http/src/components/products/controller.js:19-217 | Schemas come before pre-handlers, which come before the handler. The first failure decides the result and the store. When the schemas and every pre-handler pass, the outcome is exactly the route handler's on the unchanged store. A failed request at most drops sessions. A success replies 200 or 204 and is never an error body. |
| ProductsController.AuthenticationComesFirst | http/src/components/products/controller.js:111-114 | On every route, a missing session gives `tokenDoesNotExist` and an expired one gives `tokenExpired`, before any product or photo is looked at. |
| ProductsController.MissingProductStopsHandler | http/src/components/products/controller.js:137-140 | With a live session, a missing product gives `productDoesNotExist` on every `/:productId` route, and nothing changes. |
| ProductsController.MissingPhotoStopsHandler | http/src/components/products/controller.js:207-211 | A missing photo gives `productPhotoDoesNotExist`, and nothing changes. |
| ProductsController.PhotoUpload | http/src/components/products/controller.js:147-188 | With a live session and an existing product, upload replies 200 with the new photo's id. The store then gains the photo row and its blob. |
| ProductsController.PhotoDeletion | http/src/components/products/controller.js:190-216 | With all three checks passing, photo deletion replies 204 and removes the photo. |
| ProductsController.DeletePhotoIgnoresOwner | http/src/components/products/controller.js:207-213 | A photo of another product is still deleted through any existing product's route. |
| ProductsController.ValidListingSucceeds | http/src/components/products/controller.js:49-89 | A valid listing request with a live session replies 200 with the `getProducts` page. The page number is the `page` digits, `asc` means ascending and anything else descending, `sortBy` names the key, and `query` is the name filter when given. Nothing changes. |
| ProductsController.ProductCreation | http/src/components/products/controller.js:20-47 | With a live session, creation replies 200 with the new id. It appends exactly the product built from the six body fields. |
| ProductsController.ProductUpdate | http/src/components/products/controller.js:91-119 | With a live session and an existing product, an update replies 204 and applies `updateProduct` with the fields the body carries. |
| ProductsController.ProductDeletion | http/src/components/products/controller.js:121-145 | With a live session and an existing product, deletion replies 204. The store is exactly the one `deleteProduct` leaves: the rows with the id are gone, and every other product stays, in table order. Users, sessions, photos and blobs are untouched. |
| Server.HandleError | http/src/utils/loaders.js:108-131 | Domain errors reply with their own status, type and message. Other 400 errors reply `validation`. Everything else replies `unknown` with the transport's default status. |
| Server.ErrorHandlerOrder | http/src/utils/loaders.js:108-131 | A 400 domain error keeps its own type rather than `validation`. All non-400 unexpected errors give one identical reply. |
| Server.DomainStatusCodes | http/src/components/users/errors.js:1-27 | Domain errors are 400, except the two token errors, which are 401. |
| Server.RouteOf | http/src/utils/loaders.js:133-134 | User routes are POST routes under the `/users` prefix; product routes sit under `/products`. |
| Server.RouteTableIsUnambiguous | http/src/utils/loaders.js:133-134 | No two routes share a method and path. |
| Server.SchemaFailureAnswers400 | http/src/utils/loaders.js:108-131 | On every endpoint, a request that fails its schema is answered 400 `validation` with the failing part as message, and the store is unchanged. |
| Server.FailedRequestWritesNothing | http/src/utils/loaders.js:108-134 | A reply is an error body exactly when its status is neither 200 nor 204. A request answered with an error at most drops sessions, and writes no user, product, photo or blob. |
| Scenarios.LogOutWithExpiredSession | http/src/components/users/test.js:90-120 | Log-out with an expired token answers 401 `tokenExpired`. Repeating it answers 401 `tokenDoesNotExist`. |
| Scenarios.DeleteMissingProduct | http/src/components/products/test.js:124-138 | Deleting a missing product answers 400 `productDoesNotExist` and leaves the store unchanged. |
| Scenarios.ServeUpload | http/src/components/products/test.js:141-150 | A served upload answers 200 with the photo id. It keeps products and sessions and adds the photo. |
| Scenarios.ServeDeletePhoto | http/src/components/products/test.js:152-165 | A served photo deletion answers 204 and removes the photo, keeping products and sessions. |
| Scenarios.ServeMissingPhoto | http/src/components/products/controller.js:207-211 | A served delete of a missing photo answers 400 `productPhotoDoesNotExist` and changes nothing. |
| Scenarios.PhotoDeletedOnce | http/src/components/products/test.js:141-183 | An uploaded photo answers 200 with its id. It can be deleted once (204). A second delete answers 400 `productPhotoDoesNotExist`. |
| Scenarios.PriceUpdateShowsOnItsPage | http/src/components/products/service.js:34-55 | After a price-only update, the product has the new price and keeps its other five fields. At its place `i` in the ordered rows, page ⌊i/25⌋+1 lists its id, name and new price. |
| Scenarios.DeletedProductOnNoPage | http/src/components/products/service.js:34-65 | After deletion, no page lists the product, for every order and query. |

## Left out

- The database, bcrypt, dayjs, S3 and the UUID generator are not modelled as code:
  - Their effects are modelled on the abstract store.
  - Their outputs come in through `Env`: the clock, fresh ids and tokens, generated photo names, `hash`, `matches` and the e-mail format check.
  - Freshness of ids and tokens is a precondition, because the database guarantees it.
- Time is whole milliseconds, and 7 days is a fixed 604800000 ms, with no calendar or time-zone effects.
- The database schema's foreign keys and cascades are not part of this model:
  - Uploading a photo does not check the product.
  - Deleting a product leaves its photos.
- Prisma's not-found errors on update and delete carry no status code. They are modelled as one unexpected error, which the error handler turns into `unknown`.
- 32-bit `Int` columns are not modelled: ids and pages are unbounded naturals, so overflow is not considered.
- Prices are real numbers. JavaScript number formatting (exponent notation in `toString`) is not modelled: a number's text is part of the request.
- `+` conversion is modelled only for digit strings. That is all the route schemas let through on the `params` location the routes use. Other locations and forms (whitespace, signs, hex) are left out.
- Exact validation messages are not modelled; a schema failure carries only the part that failed.
- Listing order compares names by character code, not by the database's collation.
- Substring search does not model Prisma's escaping of `%` and `_`.
- ProductsService.Keeps: `contains` is matched case-sensitively. Under a case-insensitive database collation (MySQL's default), the source also lists names that differ from the query only in letter case.
- Row order the database leaves open is fixed in the model:
  - `findFirst` in log-in has no `orderBy`, and the model takes the first matching user in table order.
  - The listing's `orderBy` has no tiebreaker, and rows with equal names or prices keep table order.
  - In the source, pages over tied keys may overlap or skip rows from one request to the next.
  - ProductsService.EveryMatchOnItsPage holds for the model's fixed order only.
- ProductsController.BodyValid: request bodies carry only the six product fields, each of the right type. Other cases are not modelled:
  - `baseProductSchema` has no `additionalProperties: false`, so an unknown property passes the schema.
  - A PATCH with only `{"foo": 1}` passes `minProperties: 1`. Prisma then rejects the unknown field, and the reply is `unknown` rather than 400.
  - A field of the wrong type fails the schema with a 400. The model has no such body to express it.
- Concurrency is not modelled: races between requests and partial failure (a row written but the blob upload failed) are out of scope.
- Logging, Swagger, the upload size limit and the empty-body response schemas are left out.
- The service and middleware copies under `common/` are not part of this model.
- The nested `body` property that the log-in schema as written would validate is not modelled. Only its effect on the top-level fields is.
- The log-in schema is modelled as corrected, as `authReqBody`, in `UsersController.Validate`, `UsersController.Handle` and the dispatcher `Server.Serve`. The schema as written is `UsersController.LogInSchemaAsWritten`, and the route as written is `UsersController.LogInAsWritten`.

## Findings

| source | as written | input that shows it | evidently intended | confidence | as-written member | corrected member |
|---|---|---|---|---|---|---|
| http/src/components/users/controller.js:28-30 | The log-in body schema is `{ body: { $ref: 'authReqBody#' } }`, which the framework reads as an object schema with an optional `body` property. The top-level `email` and `password` go unvalidated, and Prisma ignores an undefined `email` filter. | `POST /users/log-in` with body `{"password": <first user's password>}` logs in as the first user in the table | `body: { $ref: 'authReqBody#' }`, as on `/register`: e-mail and password required and checked | not executed; medium (depends on the framework's shorthand reading of schemas without `type`) | UsersController.LogInWithoutEmailPicksFirstUser | UsersController.LogInSessionBelongsToNamedUser |

=== FILE: auth_middleware.dfy ===
/** The authentication pre-handler (users/middleware.js): takes the token
    from the authorization header and validates it. */
module AuthMiddleware {

  import opened Results
  import opened Errors
  import opened Entities
  import opened Text
  import opened UsersService
  import opened Schemas

  /** The scheme word `replace` removes from the header. */
  const Scheme: string := "Basic "

  /** `authorization.replace('Basic ', '')`: only the first occurrence goes. */
  function ExtractToken(authorization: string): string
  {
    RemoveFirst(authorization, Scheme)
  }

  /** `validateAuthMiddleware`: a missing header makes `replace` throw on
      `undefined`; otherwise the token is validated. */
  function ValidateAuthMiddleware(st: Store, headers: map<string, string>, now: int): (r: Step<()>)
    ensures "authorization" !in headers ==> r.result.Err? && r.result.error.Other? && r.store == st
    ensures "authorization" in headers ==>
      var t := ExtractToken(headers["authorization"]);
      && (r.result.Ok? <==> t in st.sessions && st.sessions[t].expiresAt >= now)
      && (r.result.Err? ==> r.result.error in {App(TokenDoesNotExist), App(TokenExpired)})
      && r.store.sessions.Keys == (if r.result == Err(App(TokenExpired)) then st.sessions.Keys - {t}
                                   else st.sessions.Keys)
    ensures r.store == st.(sessions := r.store.sessions)
    ensures forall t :: t in r.store.sessions ==> r.store.sessions[t] == st.sessions[t]
  {
    if "authorization" !in headers then
      Step(Err(Unexpected("Cannot read properties of undefined (reading 'replace')")), st)
    else
      ValidateAuth(st, ExtractToken(headers["authorization"]), now)
  }

  /** The middleware adds nothing to `validateAuth`: same outcome, same
      error, same store. */
  lemma MiddlewareIsValidateAuth(st: Store, headers: map<string, string>, now: int)
    requires "authorization" in headers
    ensures ValidateAuthMiddleware(st, headers, now) ==
            ValidateAuth(st, ExtractToken(headers["authorization"]), now)
  {
  }

  /** A header `Basic <t>` yields `t`, even when `t` itself contains the
      scheme word. */
  lemma ExtractTokenOfScheme(t: string)
    ensures ExtractToken(Scheme + t) == t
  {
    RemoveFirstOfPrefixed(Scheme, t);
  }

  /** For a header the schema admits, the token is exactly the 36-character
      suffix. */
  lemma WellFormedHeaderToken(h: string)
    requires AuthHeaderPattern(h)
    ensures ExtractToken(h) == h[6..] && |ExtractToken(h)| == 36
  {
    assert h == Scheme + h[6..];
    ExtractTokenOfScheme(h[6..]);
  }
}

=== FILE: entities.dfy ===
/** The persistent state the services work on: the four database tables and
    the photo bucket, as immutable values. */
module Entities {

  import opened Results
  import opened Errors

  /** A row of `users`; `password` holds the bcrypt hash, never the password. */
  datatype User = User(id: nat, email: string, password: string)

  /** A row of `sessions`, keyed by its `publicId` in the store. Times are
      milliseconds on the server clock. */
  datatype Session = Session(expiresAt: int, createdById: nat)

  /** The six client-supplied product fields. Prices are kept as reals: only
      their order matters to the model. */
  datatype ProductInfo = ProductInfo(
    name: string,
    description: string,
    price: real,
    taxPercentage: real,
    inStock: bool,
    isActive: bool)

  datatype Product = Product(id: nat, info: ProductInfo)

  /** A row of `productPhotos`; `name` is generated by the database. */
  datatype Photo = Photo(name: string, extension: string, productId: nat)

  /** Users and products are sequences. The database promises no row order;
      the model fixes this one, and uses it for `findFirst` without an
      `orderBy` and for rows whose sort keys tie. Sessions are keyed by
      `publicId` and photos by `id`. `blobs` holds the keys of the objects in
      the photo bucket. */
  datatype Store = Store(
    users: seq<User>,
    sessions: map<string, Session>,
    products: seq<Product>,
    photos: map<nat, Photo>,
    blobs: set<string>)

  /** What an operation returns (or throws), and the store after it. */
  datatype Step<+T> = Step(result: Result<T, Error>, store: Store)

  predicate HasUserId(users: seq<User>, id: nat)
  {
    exists i :: 0 <= i < |users| && users[i].id == id
  }

  predicate HasUserEmail(users: seq<User>, email: string)
  {
    exists i :: 0 <= i < |users| && users[i].email == email
  }

  predicate HasProductId(products: seq<Product>, id: nat)
  {
    exists i :: 0 <= i < |products| && products[i].id == id
  }

  /** The integrity the database schema and the services keep: user ids and
      emails are unique, every session belongs to an existing user, product
      ids are unique. */
  predicate Valid(st: Store)
  {
    && (forall i, j :: 0 <= i < j < |st.users| ==> st.users[i].id != st.users[j].id)
    && (forall i, j :: 0 <= i < j < |st.users| ==> st.users[i].email != st.users[j].email)
    && (forall t :: t in st.sessions ==> HasUserId(st.users, st.sessions[t].createdById))
    && UniqueProductIds(st.products)
  }

  predicate UniqueProductIds(products: seq<Product>)
  {
    forall i, j :: 0 <= i < j < |products| ==> products[i].id != products[j].id
  }
}

=== FILE: errors.dfy ===
/** The error taxonomy: the AppError constant tables of the users and products
    components, and the other values that reach the global error handler. */
module Errors {

  import opened Results

  /** One constructor per entry of the two `errors` tables. */
  datatype Kind =
    | EmailInUse
    | UserDoesNotExist
    | WrongPassword
    | TokenDoesNotExist
    | TokenExpired
    | ProductDoesNotExist
    | ProductPhotoDoesNotExist

  /** The `type` field of a table entry. */
  function TypeName(k: Kind): string
  {
    match k
    case EmailInUse => "emailInUse"
    case UserDoesNotExist => "userDoesNotExist"
    case WrongPassword => "wrongPassword"
    case TokenDoesNotExist => "tokenDoesNotExist"
    case TokenExpired => "tokenExpired"
    case ProductDoesNotExist => "productDoesNotExist"
    case ProductPhotoDoesNotExist => "productPhotoDoesNotExist"
  }

  /** The `message` field of a table entry. */
  function Message(k: Kind): string
  {
    match k
    case EmailInUse => "email is already in use"
    case UserDoesNotExist => "there is no user with the given email"
    case WrongPassword => "wrong password"
    case TokenDoesNotExist => "you must be logged in to perform that action"
    case TokenExpired => "you must be logged in to perform that action"
    case ProductDoesNotExist => "there is no product with the given id"
    case ProductPhotoDoesNotExist => "there is no product photo with the given id"
  }

  /** The `statusCode` field of a table entry. */
  function StatusCode(k: Kind): int
  {
    match k
    case TokenDoesNotExist => 401
    case TokenExpired => 401
    case _ => 400
  }

  /** A thrown value: an AppError built from a table entry, or any other error
      object, which may carry a numeric `statusCode` property. */
  datatype Error =
    | App(kind: Kind)
    | Other(statusCode: Option<int>, message: string)

  /** A failure of the database client or of a library call; such errors carry
      no `statusCode`. */
  function Unexpected(message: string): Error
  {
    Other(None, message)
  }

  /** A schema-validation failure raised by the web framework (status 400). */
  function Invalid(message: string): Error
  {
    Other(Some(400), message)
  }
}

=== FILE: http.dfy ===
/** The shapes the web framework hands to the routes and sends back, and the
    values the outside world supplies to one request. */
module Http {

  import opened Results
  import opened Entities
  import UsersService
  import ProductsService

  /** A JSON number: its value, and `toString()` of it, which the `decimals`
      keyword inspects. */
  datatype Num = Num(value: real, text: string)

  /** The product fields of a request body; any of them may be missing. */
  datatype ProductFields = ProductFields(
    name: Option<string>,
    description: Option<string>,
    price: Option<Num>,
    taxPercentage: Option<Num>,
    inStock: Option<bool>,
    isActive: Option<bool>)

  /** An uploaded file as the upload plugin presents it. */
  datatype File = File(name: string)

  /** The parsed request body, in the shapes the routes read. */
  datatype Body =
    | NoBody
    | Credentials(email: Option<string>, password: Option<string>)
    | ProductBody(fields: ProductFields)
    | FileBody(file: Option<File>)

  /** Header names are lower case, as the HTTP server delivers them. */
  datatype Request = Request(
    headers: map<string, string>,
    params: map<string, string>,
    query: map<string, string>,
    body: Body)

  /** The request locations an existence check may read from. */
  datatype Location = Params | Query | Headers

  /** `req[locationOnReq][propName]`; `None` stands for `undefined`. */
  function Lookup(req: Request, loc: Location, prop: string): Option<string>
  {
    var m := match loc
      case Params => req.params
      case Query => req.query
      case Headers => req.headers;
    if prop in m then Some(m[prop]) else None
  }

  datatype ReplyBody =
    | Empty
    | IdBody(id: nat)
    | LoginBody(info: UsersService.LoginInfo)
    | ListingBody(items: seq<ProductsService.Listing>)
    | ErrorBody(error: string, message: string)

  /** `status` is `None` when the handler leaves the status code to the
      framework's default. */
  datatype Reply = Reply(status: Option<int>, body: ReplyBody)

  /** What the world outside the code supplies to one request: the clock,
      the keys the database generates for new rows, bcrypt's hash (with the
      salt of this call) and compare, and the `email` string format. */
  datatype Env = Env(
    now: int,
    token: string,
    userId: nat,
    productId: nat,
    photoId: nat,
    photoName: string,
    hash: string -> string,
    matches: (string, string) -> bool,
    isEmail: string -> bool)

  /** The generated keys are not in use yet. */
  predicate FreshFor(env: Env, st: Store)
  {
    && env.token !in st.sessions
    && !HasUserId(st.users, env.userId)
    && !HasProductId(st.products, env.productId)
    && env.photoId !in st.photos
  }
}

=== FILE: prehandlers.dfy ===
/** The framework's pre-handler lists: checks run in order before a route's
    handler, and the first failure ends the request. */
module PreHandlers {

  import opened Results
  import opened Errors
  import opened Entities
  import opened Http
  import AuthMiddleware
  import ProductsMiddleware

  /** The checks the routes use: the authentication middleware and the two
      existence-check factories with their arguments. */
  datatype Check =
    | Authenticated
    | ProductExistence(loc: Location, prop: string)
    | PhotoExistence(loc: Location, prop: string)

  /** A step that at most removes sessions. */
  predicate OnlyDropsSessions(before: Store, after: Store)
  {
    && after == before.(sessions := after.sessions)
    && after.sessions.Keys <= before.sessions.Keys
    && forall t :: t in after.sessions ==> after.sessions[t] == before.sessions[t]
  }

  function RunCheck(c: Check, st: Store, req: Request, now: int): (r: Step<()>)
    ensures OnlyDropsSessions(st, r.store)
    ensures !c.Authenticated? ==> r.store == st
    ensures r.result.Ok? ==> r.store == st
  {
    match c
    case Authenticated => AuthMiddleware.ValidateAuthMiddleware(st, req.headers, now)
    case ProductExistence(loc, prop) =>
      Step(ProductsMiddleware.ValidateProductExistence(st, req, loc, prop), st)
    case PhotoExistence(loc, prop) =>
      Step(ProductsMiddleware.ValidateProductPhotoExistence(st, req, loc, prop), st)
  }

  /** Runs the checks in order; the first failure is the outcome. */
  function RunChain(checks: seq<Check>, st: Store, req: Request, now: int): (r: Step<()>)
    ensures OnlyDropsSessions(st, r.store)
    ensures |checks| == 0 ==> r == Step(Ok(()), st)
    ensures |checks| > 0 && RunCheck(checks[0], st, req, now).result.Err? ==>
      r == RunCheck(checks[0], st, req, now)
    ensures r.result.Ok? ==> r.store == st
    decreases |checks|
  {
    if |checks| == 0 then Step(Ok(()), st)
    else
      var first := RunCheck(checks[0], st, req, now);
      if first.result.Err? then first
      else
        RunChain(checks[1..], first.store, req, now)
  }

  /** A chain passes exactly when every one of its checks passes on the
      request's store: a passing check leaves the store as it was, so every
      check sees the same store. */
  lemma {:induction false} ChainPassesIffAllPass(checks: seq<Check>, st: Store, req: Request, now: int)
    ensures RunChain(checks, st, req, now).result.Ok? <==>
      forall i :: 0 <= i < |checks| ==> RunCheck(checks[i], st, req, now).result.Ok?
    decreases |checks|
  {
    if |checks| > 0 {
      var first := RunCheck(checks[0], st, req, now);
      if first.result.Ok? {
        assert first.store == st;
        ChainPassesIffAllPass(checks[1..], st, req, now);
        TailChecks(checks, st, req, now);
      }
    }
  }

  /** The first failing check decides the chain's outcome, error and store
      alike; the checks after it do not run. */
  lemma {:induction false} ChainStopsAtFirstFailure(checks: seq<Check>, st: Store, req: Request, now: int, i: nat)
    requires i < |checks| && RunCheck(checks[i], st, req, now).result.Err?
    requires forall j :: 0 <= j < i ==> RunCheck(checks[j], st, req, now).result.Ok?
    ensures RunChain(checks, st, req, now) == RunCheck(checks[i], st, req, now)
    decreases i
  {
    if i > 0 {
      var first := RunCheck(checks[0], st, req, now);
      assert first.result.Ok? && first.store == st;
      var tail := checks[1..];
      assert tail[i - 1] == checks[i];
      forall j | 0 <= j < i - 1
        ensures RunCheck(tail[j], st, req, now).result.Ok?
      {
        assert tail[j] == checks[j + 1];
      }
      ChainStopsAtFirstFailure(tail, st, req, now, i - 1);
    }
  }

  /** Every check after the first is a check of the tail, one place on. */
  lemma TailChecks(checks: seq<Check>, st: Store, req: Request, now: int)
    requires |checks| > 0
    ensures forall i :: 1 <= i < |checks| ==> checks[i] == checks[1..][i - 1]
    ensures (forall i :: 0 <= i < |checks| ==> RunCheck(checks[i], st, req, now).result.Ok?) <==>
      RunCheck(checks[0], st, req, now).result.Ok? &&
      forall i :: 0 <= i < |checks| - 1 ==> RunCheck(checks[1..][i], st, req, now).result.Ok?
  {
    if forall i :: 0 <= i < |checks| - 1 ==> RunCheck(checks[1..][i], st, req, now).result.Ok? {
      forall i | 1 <= i < |checks|
        ensures RunCheck(checks[i], st, req, now).result.Ok?
      {
        assert checks[i] == checks[1..][i - 1];
      }
    }
  }

  /** A chain passes exactly when every check passes on the store its
      predecessors left. */
  lemma {:induction false} ChainAppend(a: seq<Check>, b: seq<Check>, st: Store, req: Request, now: int)
    ensures var x := RunChain(a, st, req, now);
      RunChain(a + b, st, req, now) == (if x.result.Err? then x else RunChain(b, x.store, req, now))
    decreases |a|
  {
    if |a| > 0 {
      assert (a + b)[0] == a[0] && (a + b)[1..] == a[1..] + b;
      var first := RunCheck(a[0], st, req, now);
      if first.result.Ok? {
        ChainAppend(a[1..], b, first.store, req, now);
      }
    } else {
      assert a + b == b;
    }
  }
}

=== FILE: products_controller.dfy ===
/** The products routes (products/controller.js): per route, the schemas,
    the pre-handler list and the handler with its success reply. */
module ProductsController {

  import opened Results
  import opened Errors
  import opened Entities
  import opened Text
  import opened Http
  import opened Schemas
  import opened PreHandlers
  import ProductsService
  import AuthMiddleware

  /** POST /, GET /, PATCH /:productId, DELETE /:productId,
      POST /:productId/photos, DELETE /:productId/photos/:photoId. */
  datatype Route = Create | List | Update | Delete | Upload | DeletePhoto

  /** The `preHandler` list of each route. */
  function PreHandlerList(r: Route): (checks: seq<Check>)
    ensures |checks| >= 1 && checks[0] == Authenticated
    ensures r in {Create, List} <==> |checks| == 1
    ensures r !in {Create, List} ==> checks[1] == ProductExistence(Params, "productId")
    ensures r == DeletePhoto <==> |checks| == 3
    ensures r == DeletePhoto ==> checks[2] == PhotoExistence(Params, "photoId")
  {
    match r
    case Create => [Authenticated]
    case List => [Authenticated]
    case Update => [Authenticated, ProductExistence(Params, "productId")]
    case Delete => [Authenticated, ProductExistence(Params, "productId")]
    case Upload => [Authenticated, ProductExistence(Params, "productId")]
    case DeletePhoto =>
      [Authenticated, ProductExistence(Params, "productId"), PhotoExistence(Params, "photoId")]
  }

  // -----------------------------------------------------------------------
  // Schemas
  // -----------------------------------------------------------------------

  predicate IdParam(req: Request, name: string)
  {
    name in req.params && IdPattern(req.params[name])
  }

  /** The `params` schema of each route. */
  predicate ParamsValid(r: Route, req: Request)
  {
    match r
    case Create => true
    case List => true
    case DeletePhoto => IdParam(req, "productId") && IdParam(req, "photoId")
    case _ => IdParam(req, "productId")
  }

  /** The `body` schema of each route: creation needs every product field,
      an update at least one; an upload needs a file. */
  predicate BodyValid(r: Route, req: Request)
  {
    match r
    case Create =>
      req.body.ProductBody? && HasAllFields(req.body.fields) && ValidProductFields(req.body.fields)
    case Update =>
      req.body.ProductBody? && HasSomeField(req.body.fields) && ValidProductFields(req.body.fields)
    case Upload => req.body.FileBody? && req.body.file.Some?
    case _ => true
  }

  predicate SortValue(s: string)
  {
    s == "asc" || s == "desc"
  }

  predicate SortByValue(s: string)
  {
    s == "id" || s == "name" || s == "price"
  }

  /** The `querystring` schema of the listing route. */
  predicate QueryValid(r: Route, req: Request)
  {
    r == List ==>
      && "page" in req.query && PagePattern(req.query["page"])
      && "sort" in req.query && SortValue(req.query["sort"])
      && "sortBy" in req.query && SortByValue(req.query["sortBy"])
  }

  /** The framework checks params, body, querystring and headers, in that
      order, before any pre-handler; the first failing part is reported. */
  function Validate(r: Route, req: Request): (e: Option<Error>)
    ensures e.None? <==>
      ParamsValid(r, req) && BodyValid(r, req) && QueryValid(r, req) && AuthHeaders(req.headers)
    ensures e.Some? ==> e.value.Other? && e.value.statusCode == Some(400)
  {
    if !ParamsValid(r, req) then Some(Invalid("params"))
    else if !BodyValid(r, req) then Some(Invalid("body"))
    else if !QueryValid(r, req) then Some(Invalid("querystring"))
    else if !AuthHeaders(req.headers) then Some(Invalid("headers"))
    else None
  }

  // -----------------------------------------------------------------------
  // Handlers
  // -----------------------------------------------------------------------

  function ParseSort(s: string): ProductsService.SortOrder
  {
    if s == "asc" then ProductsService.Asc else ProductsService.Desc
  }

  function ParseSortBy(s: string): ProductsService.SortKey
  {
    if s == "id" then ProductsService.ById
    else if s == "name" then ProductsService.ByName
    else ProductsService.ByPrice
  }

  function ToInfo(f: ProductFields): ProductInfo
    requires HasAllFields(f)
  {
    ProductInfo(f.name.value, f.description.value, f.price.value.value,
                f.taxPercentage.value.value, f.inStock.value, f.isActive.value)
  }

  function NumValue(n: Option<Num>): Option<real>
  {
    if n.None? then None else Some(n.value.value)
  }

  function ToPatch(f: ProductFields): ProductsService.Patch
  {
    ProductsService.Patch(f.name, f.description, NumValue(f.price), NumValue(f.taxPercentage),
                          f.inStock, f.isActive)
  }

  function ParamId(req: Request, name: string): nat
    requires IdParam(req, name)
  {
    ToNumber(req.params[name]).value
  }

  /** The `query` parameter, when given. */
  function QueryText(req: Request): Option<string>
  {
    if "query" in req.query then Some(req.query["query"]) else None
  }

  function Page(req: Request): nat
    requires QueryValid(List, req)
  {
    ToNumber(req.query["page"]).value
  }

  /** A service outcome with its success value turned into a reply. */
  function Answer<T>(s: Step<T>, reply: T -> Reply): Step<Reply>
  {
    Step(if s.result.Ok? then Ok(reply(s.result.value)) else Err(s.result.error), s.store)
  }

  function NoContent(u: ()): Reply
  {
    Reply(Some(204), Empty)
  }

  function WithId(id: nat): Reply
  {
    Reply(Some(200), IdBody(id))
  }

  /** The route handlers: creation routes return `{ id }` with 200, PATCH and
      DELETE routes reply 204 with no body. A handler that fails leaves the
      store as it found it, and no success reply is an error body. */
  function Handler(r: Route, st: Store, req: Request, env: Env): (out: Step<Reply>)
    requires FreshFor(env, st) && Validate(r, req).None?
    ensures out.result.Ok? && r in {Create, Upload} ==> out.result.value.status == Some(200)
    ensures out.result.Ok? && r in {Update, Delete, DeletePhoto} ==> out.result.value == Reply(Some(204), Empty)
    ensures out.result.Ok? ==> !out.result.value.body.ErrorBody?
    ensures out.result.Err? ==> out.store == st
    ensures r == Create ==>
      && out.result == Ok(Reply(Some(200), IdBody(env.productId)))
      && out.store == st.(products := st.products + [Product(env.productId, ToInfo(req.body.fields))])
    ensures r == List ==>
      var q := req.query;
      var page := ProductsService.GetProducts(
        st, DigitsValue(q["page"]),
        if q["sort"] == "asc" then ProductsService.Asc else ProductsService.Desc,
        if q["sortBy"] == "id" then ProductsService.ById
        else if q["sortBy"] == "name" then ProductsService.ByName
        else ProductsService.ByPrice,
        if "query" in q then Some(q["query"]) else None);
      page.Ok? && out == Step(Ok(Reply(Some(200), ListingBody(page.value))), st)
    ensures r == Update ==>
      && (out.result.Ok? <==> HasProductId(st.products, ParamId(req, "productId")))
      && out.store == ProductsService.UpdateProduct(st, ParamId(req, "productId"), ToPatch(req.body.fields)).store
    ensures r == Delete ==>
      && (out.result.Ok? <==> HasProductId(st.products, ParamId(req, "productId")))
      && out.store == ProductsService.DeleteProduct(st, ParamId(req, "productId")).store
    ensures r == Upload ==>
      && out.result == Ok(Reply(Some(200), IdBody(env.photoId)))
      && out.store == ProductsService.UploadPhoto(st, ParamId(req, "productId"), req.body.file.value.name,
                                                  env.photoId, env.photoName).store
    ensures r == DeletePhoto ==>
      && (out.result.Ok? <==> ParamId(req, "photoId") in st.photos)
      && out.store == ProductsService.DeletePhoto(st, ParamId(req, "photoId")).store
  {
    match r
    case Create =>
      Answer(ProductsService.CreateProduct(st, ToInfo(req.body.fields), env.productId), WithId)
    case List =>
      PagePatternIsPositive(req.query["page"]);
      var page := ProductsService.GetProducts(st, Page(req), ParseSort(req.query["sort"]),
                                              ParseSortBy(req.query["sortBy"]), QueryText(req));
      Step(Ok(Reply(Some(200), ListingBody(page.value))), st)
    case Update =>
      Answer(ProductsService.UpdateProduct(st, ParamId(req, "productId"), ToPatch(req.body.fields)), NoContent)
    case Delete =>
      Answer(ProductsService.DeleteProduct(st, ParamId(req, "productId")), NoContent)
    case Upload =>
      Answer(ProductsService.UploadPhoto(st, ParamId(req, "productId"), req.body.file.value.name,
                                         env.photoId, env.photoName), WithId)
    case DeletePhoto =>
      Answer(ProductsService.DeletePhoto(st, ParamId(req, "photoId")), NoContent)
  }

  /** A request to one of the routes: schemas, then pre-handlers in order,
      then the handler only if every pre-handler passed. */
  function Handle(r: Route, st: Store, req: Request, env: Env): (out: Step<Reply>)
    requires FreshFor(env, st)
    ensures Validate(r, req).Some? ==> out == Step(Err(Validate(r, req).value), st)
    ensures Validate(r, req).None? && RunChain(PreHandlerList(r), st, req, env.now).result.Err? ==>
      out == Step(Err(RunChain(PreHandlerList(r), st, req, env.now).result.error),
                  RunChain(PreHandlerList(r), st, req, env.now).store)
    ensures Validate(r, req).None? && RunChain(PreHandlerList(r), st, req, env.now).result.Ok? ==>
      out == Handler(r, st, req, env)
    ensures out.result.Err? ==> OnlyDropsSessions(st, out.store)
    ensures out.result.Ok? ==> !out.result.value.body.ErrorBody?
    ensures out.result.Ok? ==> out.result.value.status in {Some(200), Some(204)}
  {
    match Validate(r, req)
    case Some(e) => Step(Err(e), st)
    case None =>
      var pre := RunChain(PreHandlerList(r), st, req, env.now);
      if pre.result.Err? then Step(Err(pre.result.error), pre.store)
      else Handler(r, pre.store, req, env)
  }

  // -----------------------------------------------------------------------
  // Properties
  // -----------------------------------------------------------------------

  /** The token of a request that passed the header schema. */
  function Token(req: Request): string
    requires AuthHeaders(req.headers)
  {
    AuthMiddleware.ExtractToken(req.headers["authorization"])
  }

  /** Authentication comes first on every route: a request whose token has no
      session is refused with `tokenDoesNotExist` whatever products and
      photos exist, and an expired one with `tokenExpired`; nothing but the
      expired session changes. */
  lemma AuthenticationComesFirst(r: Route, st: Store, req: Request, env: Env)
    requires FreshFor(env, st) && Validate(r, req).None?
    ensures Token(req) !in st.sessions ==> Handle(r, st, req, env) == Step(Err(App(TokenDoesNotExist)), st)
    ensures Token(req) in st.sessions && st.sessions[Token(req)].expiresAt < env.now ==>
      Handle(r, st, req, env) == Step(Err(App(TokenExpired)), st.(sessions := st.sessions - {Token(req)}))
  {
  }

  /** On the routes that name a product, an authenticated request for a
      missing product is refused with `productDoesNotExist` and the handler
      does not run: the store is unchanged. */
  lemma MissingProductStopsHandler(r: Route, st: Store, req: Request, env: Env)
    requires FreshFor(env, st) && Validate(r, req).None? && r !in {Create, List}
    requires Token(req) in st.sessions && st.sessions[Token(req)].expiresAt >= env.now
    requires !HasProductId(st.products, ParamId(req, "productId"))
    ensures Handle(r, st, req, env) == Step(Err(App(ProductDoesNotExist)), st)
  {
    var checks := PreHandlerList(r);
    assert RunCheck(checks[0], st, req, env.now) == Step(Ok(()), st);
    assert RunCheck(checks[1], st, req, env.now) == Step(Err(App(ProductDoesNotExist)), st);
    assert checks[1..][0] == checks[1];
  }

  /** Photo deletion checks the photo only after the product: for an existing
      product and a missing photo it is refused with
      `productPhotoDoesNotExist`, and nothing changes. */
  lemma MissingPhotoStopsHandler(st: Store, req: Request, env: Env)
    requires FreshFor(env, st) && Validate(DeletePhoto, req).None?
    requires Token(req) in st.sessions && st.sessions[Token(req)].expiresAt >= env.now
    requires HasProductId(st.products, ParamId(req, "productId"))
    requires ParamId(req, "photoId") !in st.photos
    ensures Handle(DeletePhoto, st, req, env) == Step(Err(App(ProductPhotoDoesNotExist)), st)
  {
    var checks := PreHandlerList(DeletePhoto);
    assert RunCheck(checks[0], st, req, env.now) == Step(Ok(()), st);
    assert RunCheck(checks[1], st, req, env.now) == Step(Ok(()), st);
    assert RunCheck(checks[2], st, req, env.now) == Step(Err(App(ProductPhotoDoesNotExist)), st);
    assert checks[1..][0] == checks[1] && checks[1..][1..][0] == checks[2];
  }

  /** Product creation with a live session answers 200 with the new id and
      appends the product built from the body's six fields. */
  lemma ProductCreation(st: Store, req: Request, env: Env)
    requires FreshFor(env, st) && Validate(Create, req).None?
    requires Token(req) in st.sessions && st.sessions[Token(req)].expiresAt >= env.now
    ensures Handle(Create, st, req, env)
      == Step(Ok(Reply(Some(200), IdBody(env.productId))),
              st.(products := st.products + [Product(env.productId, ToInfo(req.body.fields))]))
  {
    assert RunCheck(Authenticated, st, req, env.now) == Step(Ok(()), st);
  }

  /** An update of an existing product with a live session answers 204 and
      overwrites exactly the fields the body carries. */
  lemma ProductUpdate(st: Store, req: Request, env: Env)
    requires FreshFor(env, st) && Validate(Update, req).None?
    requires Token(req) in st.sessions && st.sessions[Token(req)].expiresAt >= env.now
    requires HasProductId(st.products, ParamId(req, "productId"))
    ensures var out := Handle(Update, st, req, env);
      && out.result == Ok(Reply(Some(204), Empty))
      && out.store == ProductsService.UpdateProduct(st, ParamId(req, "productId"), ToPatch(req.body.fields)).store
  {
    var checks := PreHandlerList(Update);
    assert RunCheck(checks[0], st, req, env.now) == Step(Ok(()), st);
    assert RunCheck(checks[1], st, req, env.now) == Step(Ok(()), st);
    assert checks[1..][0] == checks[1];
    assert RunChain(checks, st, req, env.now) == Step(Ok(()), st);
  }

  /** Deleting an existing product with a live session answers 204 and
      leaves exactly the store `deleteProduct` leaves: no product has the id
      afterwards, every other row stays in order, and its photos stay. */
  lemma ProductDeletion(st: Store, req: Request, env: Env)
    requires FreshFor(env, st) && Validate(Delete, req).None?
    requires Token(req) in st.sessions && st.sessions[Token(req)].expiresAt >= env.now
    requires HasProductId(st.products, ParamId(req, "productId"))
    ensures var out := Handle(Delete, st, req, env);
      && out.result == Ok(Reply(Some(204), Empty))
      && out.store == ProductsService.DeleteProduct(st, ParamId(req, "productId")).store
      && out.store == st.(products := ProductsService.RemoveRows(st.products, ParamId(req, "productId")))
      && !HasProductId(out.store.products, ParamId(req, "productId"))
  {
    var checks := PreHandlerList(Delete);
    assert RunCheck(checks[0], st, req, env.now) == Step(Ok(()), st);
    assert RunCheck(checks[1], st, req, env.now) == Step(Ok(()), st);
    assert checks[1..][0] == checks[1];
    assert RunChain(checks, st, req, env.now) == Step(Ok(()), st);
  }

  /** Photo upload to an existing product, with a live session, answers 200
      with the new photo's id and stores the row and its blob. */
  lemma PhotoUpload(st: Store, req: Request, env: Env)
    requires FreshFor(env, st) && Validate(Upload, req).None?
    requires Token(req) in st.sessions && st.sessions[Token(req)].expiresAt >= env.now
    requires HasProductId(st.products, ParamId(req, "productId"))
    ensures var out := Handle(Upload, st, req, env);
      && out.result == Ok(Reply(Some(200), IdBody(env.photoId)))
      && out.store == ProductsService.UploadPhoto(st, ParamId(req, "productId"), req.body.file.value.name,
                                                  env.photoId, env.photoName).store
  {
    var checks := PreHandlerList(Upload);
    assert RunCheck(checks[0], st, req, env.now) == Step(Ok(()), st);
    assert RunCheck(checks[1], st, req, env.now) == Step(Ok(()), st);
    assert checks[1..][0] == checks[1];
    assert RunChain(checks, st, req, env.now) == Step(Ok(()), st);
  }

  /** Photo deletion of an existing photo through an existing product's route
      answers 204 and removes the row. */
  lemma PhotoDeletion(st: Store, req: Request, env: Env)
    requires FreshFor(env, st) && Validate(DeletePhoto, req).None?
    requires Token(req) in st.sessions && st.sessions[Token(req)].expiresAt >= env.now
    requires HasProductId(st.products, ParamId(req, "productId"))
    requires ParamId(req, "photoId") in st.photos
    ensures var out := Handle(DeletePhoto, st, req, env);
      && out.result == Ok(Reply(Some(204), Empty))
      && out.store == ProductsService.DeletePhoto(st, ParamId(req, "photoId")).store
  {
    var checks := PreHandlerList(DeletePhoto);
    assert RunCheck(checks[0], st, req, env.now) == Step(Ok(()), st);
    assert RunCheck(checks[1], st, req, env.now) == Step(Ok(()), st);
    assert RunCheck(checks[2], st, req, env.now) == Step(Ok(()), st);
    assert checks[1..][0] == checks[1] && checks[1..][1..][0] == checks[2];
    assert RunChain(checks, st, req, env.now) == Step(Ok(()), st);
  }

  /** Photo deletion goes by photo id alone: a photo that belongs to another
      product is deleted through any existing product's route. */
  lemma DeletePhotoIgnoresOwner(st: Store, req: Request, env: Env)
    requires FreshFor(env, st) && Validate(DeletePhoto, req).None?
    requires Token(req) in st.sessions && st.sessions[Token(req)].expiresAt >= env.now
    requires HasProductId(st.products, ParamId(req, "productId"))
    requires ParamId(req, "photoId") in st.photos
    requires st.photos[ParamId(req, "photoId")].productId != ParamId(req, "productId")
    ensures var out := Handle(DeletePhoto, st, req, env);
      out.result == Ok(Reply(Some(204), Empty)) && ParamId(req, "photoId") !in out.store.photos
  {
    PhotoDeletion(st, req, env);
  }

  /** A listing request that passed its schema and authentication is always
      answered with 200 and the page `getProducts` returns for the request's
      page number, direction, sort key and name filter: the page is at least
      1, so the window never starts before the first row. */
  lemma ValidListingSucceeds(st: Store, req: Request, env: Env)
    requires FreshFor(env, st) && Validate(List, req).None?
    requires Token(req) in st.sessions && st.sessions[Token(req)].expiresAt >= env.now
    ensures
      var q := req.query;
      var page := ProductsService.GetProducts(
        st, DigitsValue(q["page"]),
        if q["sort"] == "asc" then ProductsService.Asc else ProductsService.Desc,
        if q["sortBy"] == "id" then ProductsService.ById
        else if q["sortBy"] == "name" then ProductsService.ByName
        else ProductsService.ByPrice,
        if "query" in q then Some(q["query"]) else None);
      page.Ok? && Handle(List, st, req, env) == Step(Ok(Reply(Some(200), ListingBody(page.value))), st)
  {
    PagePatternIsPositive(req.query["page"]);
    assert RunCheck(Authenticated, st, req, env.now) == Step(Ok(()), st);
  }
}

=== FILE: products_middleware.dfy ===
/** The existence pre-handlers (products/middleware.js): each reads an id from
    a request location and refuses the request when no row has it. */
module ProductsMiddleware {

  import opened Results
  import opened Errors
  import opened Entities
  import opened Text
  import opened Http
  import opened ProductsService

  /** `+value` for the value read from the request; `undefined` gives NaN,
      which the database client refuses as an id. */
  function Coerce(value: Option<string>): Option<nat>
  {
    if value.None? then None else ToNumber(value.value)
  }

  const InvalidId: string := "Argument id: Got invalid value"

  /** `validateProductExistence(locationOnReq, propName)` applied to a
      request. It reads the store and never writes it. */
  function ValidateProductExistence(st: Store, req: Request, loc: Location, prop: string)
    : (r: Result<(), Error>)
    ensures r.Ok? <==>
      Coerce(Lookup(req, loc, prop)).Some? && HasProductId(st.products, Coerce(Lookup(req, loc, prop)).value)
    ensures Coerce(Lookup(req, loc, prop)).Some? && r.Err? ==> r.error == App(ProductDoesNotExist)
    ensures Coerce(Lookup(req, loc, prop)).None? ==> r.Err? && r.error.Other?
  {
    var productId := Lookup(req, loc, prop);
    match Coerce(productId)
    case None => Err(Unexpected(InvalidId))
    case Some(id) =>
      var exists_ := ProductExists(st, id);
      if !exists_ then Err(App(ProductDoesNotExist)) else Ok(())
  }

  /** `validateProductPhotoExistence(locationOnReq, propName)` applied to a
      request. It reads the store and never writes it. */
  function ValidateProductPhotoExistence(st: Store, req: Request, loc: Location, prop: string)
    : (r: Result<(), Error>)
    ensures r.Ok? <==>
      Coerce(Lookup(req, loc, prop)).Some? && Coerce(Lookup(req, loc, prop)).value in st.photos
    ensures Coerce(Lookup(req, loc, prop)).Some? && r.Err? ==> r.error == App(ProductPhotoDoesNotExist)
    ensures Coerce(Lookup(req, loc, prop)).None? ==> r.Err? && r.error.Other?
  {
    var photoId := Lookup(req, loc, prop);
    match Coerce(photoId)
    case None => Err(Unexpected(InvalidId))
    case Some(id) =>
      var exists_ := PhotoExists(st, id);
      if !exists_ then Err(App(ProductPhotoDoesNotExist)) else Ok(())
  }

  /** Each existence pre-handler reads exactly `req[loc][prop]`: requests that agree there get
      the same verdict. */
  lemma ExistenceReadsOnlyItsLocation(st: Store, a: Request, b: Request, loc: Location, prop: string)
    requires Lookup(a, loc, prop) == Lookup(b, loc, prop)
    ensures ValidateProductExistence(st, a, loc, prop) == ValidateProductExistence(st, b, loc, prop)
    ensures ValidateProductPhotoExistence(st, a, loc, prop) == ValidateProductPhotoExistence(st, b, loc, prop)
  {
  }
}

=== FILE: products_service.dfy ===
/** The product catalogue and its photos (products/service.js): queries and
    writes on the products and productPhotos tables and the photo bucket. */
module ProductsService {

  import opened Results
  import opened Errors
  import opened Entities
  import opened Text

  /** `take: 25`. */
  const PageSize: nat := 25

  /** The `sortBy` values the route admits. */
  datatype SortKey = ById | ByName | ByPrice

  /** The `sort` values the route admits. */
  datatype SortOrder = Asc | Desc

  /** One item of a product listing: only `id`, `name` and `price` are selected. */
  datatype Listing = Listing(id: nat, name: string, price: real)

  /** `Partial<ProductInfo>`: the fields an update writes. */
  datatype Patch = Patch(
    name: Option<string>,
    description: Option<string>,
    price: Option<real>,
    taxPercentage: Option<real>,
    inStock: Option<bool>,
    isActive: Option<bool>)

  // -----------------------------------------------------------------------
  // createProduct
  // -----------------------------------------------------------------------

  /** `createProduct`: inserts the row under the id the database generates
      and returns that id. */
  function CreateProduct(st: Store, info: ProductInfo, id: nat): (r: Step<nat>)
    requires !HasProductId(st.products, id)
    ensures r.result == Ok(id)
    ensures |r.store.products| == |st.products| + 1
    ensures r.store.products[..|st.products|] == st.products
    ensures Last(r.store.products).id == id && Last(r.store.products).info == info
    ensures r.store.users == st.users && r.store.sessions == st.sessions
    ensures r.store.photos == st.photos && r.store.blobs == st.blobs
  {
    Step(Ok(id), st.(products := st.products + [Product(id, info)]))
  }

  // -----------------------------------------------------------------------
  // getProducts: filter, single-key order, page window
  // -----------------------------------------------------------------------

  /** `orderBy: [{ [sortBy]: 'asc' }]` compares by one column. Names compare
      by character code. */
  predicate KeyLe(a: Product, b: Product, key: SortKey)
  {
    match key
    case ById => a.id <= b.id
    case ByName => LexLe(a.info.name, b.info.name)
    case ByPrice => a.info.price <= b.info.price
  }

  /** `a` may come before `b` in the requested direction. */
  predicate Precedes(a: Product, b: Product, key: SortKey, order: SortOrder)
  {
    if order == Asc then KeyLe(a, b, key) else KeyLe(b, a, key)
  }

  lemma PrecedesTotal(a: Product, b: Product, key: SortKey, order: SortOrder)
    ensures Precedes(a, b, key, order) || Precedes(b, a, key, order)
  {
    if key == ByName {
      LexTotal(a.info.name, b.info.name);
    }
  }

  predicate SortedBy(s: seq<Product>, key: SortKey, order: SortOrder)
  {
    forall i :: 0 <= i < |s| - 1 ==> Precedes(s[i], s[i + 1], key, order)
  }

  /** Inserts `p` before the first element it may precede. */
  function Insert(p: Product, s: seq<Product>, key: SortKey, order: SortOrder): (r: seq<Product>)
    requires SortedBy(s, key, order)
    ensures SortedBy(r, key, order)
    ensures multiset(r) == multiset(s) + multiset{p}
    ensures |r| == |s| + 1
    ensures r[0] == p || (|s| > 0 && r[0] == s[0])
  {
    if |s| == 0 then [p]
    else if Precedes(p, s[0], key, order) then [p] + s
    else
      PrecedesTotal(p, s[0], key, order);
      assert s == [s[0]] + s[1..];
      [s[0]] + Insert(p, s[1..], key, order)
  }

  /** The rows in the requested order. The query's `orderBy` has no
      tiebreaker, so the database may order rows with equal keys differently
      from one request to the next; the model keeps them in store order. */
  function Sort(s: seq<Product>, key: SortKey, order: SortOrder): (r: seq<Product>)
    ensures SortedBy(r, key, order)
    ensures multiset(r) == multiset(s)
    ensures |r| == |s|
  {
    if |s| == 0 then []
    else
      assert s == [s[0]] + s[1..];
      Insert(s[0], Sort(s[1..], key, order), key, order)
  }

  /** `where: query ? { name: { contains: query } } : {}`: a missing or empty
      query keeps every row. */
  predicate Keeps(query: Option<string>, p: Product)
  {
    query.None? || query.value == "" || Contains(p.info.name, query.value)
  }

  /** The rows the `where` clause keeps, each as often as it occurs, in
      store order. */
  function Matching(ps: seq<Product>, query: Option<string>): (r: seq<Product>)
    ensures forall p :: p in r <==> p in ps && Keeps(query, p)
    ensures forall p :: multiset(r)[p] == if Keeps(query, p) then multiset(ps)[p] else 0
    ensures |r| <= |ps|
  {
    if |ps| == 0 then []
    else
      var rest := Matching(ps[1..], query);
      assert forall p :: p in ps <==> p == ps[0] || p in ps[1..];
      assert ps == [ps[0]] + ps[1..];
      if Keeps(query, ps[0]) then [ps[0]] + rest else rest
  }

  /** The filtered rows in the requested order, before the page window. */
  function Ordered(st: Store, sort: SortOrder, sortBy: SortKey, query: Option<string>): seq<Product>
  {
    Sort(Matching(st.products, query), sortBy, sort)
  }

  function ToListing(p: Product): Listing
  {
    Listing(p.id, p.info.name, p.info.price)
  }

  /** `skip: 25 * (page - 1)`. */
  function Skip(page: int): int
  {
    PageSize * (page - 1)
  }

  /** `getProducts`: the rows at positions `[skip, skip + 25)` of the ordered
      list, cut at its end. A page before the first gives a negative `skip`,
      which the database client rejects. */
  function GetProducts(st: Store, page: int, sort: SortOrder, sortBy: SortKey, query: Option<string>)
    : (r: Result<seq<Listing>, Error>)
    ensures page < 1 <==> r.Err?
    ensures r.Err? ==> r.error.Other?
    ensures r.Ok? ==>
      var all := Ordered(st, sort, sortBy, query);
      && |r.value| <= PageSize
      && (Skip(page) + PageSize <= |all| ==> |r.value| == PageSize)
      && (Skip(page) < |all| ==> |r.value| == |all| - Skip(page) || |r.value| == PageSize)
      && (Skip(page) >= |all| ==> r.value == [])
      && forall i :: 0 <= i < |r.value| ==>
           Skip(page) + i < |all| && r.value[i] == ToListing(all[Skip(page) + i])
  {
    var skip := Skip(page);
    if skip < 0 then Err(Unexpected("Invalid value for skip argument: Value can only be positive"))
    else
      var all := Ordered(st, sort, sortBy, query);
      var lo := if skip < |all| then skip else |all|;
      var hi := if skip + PageSize < |all| then skip + PageSize else |all|;
      Ok(seq(hi - lo, i requires 0 <= i < hi - lo => ToListing(all[lo + i])))
  }

  // -----------------------------------------------------------------------
  // updateProduct, deleteProduct
  // -----------------------------------------------------------------------

  /** Writes the fields present in the patch; the others keep their value. */
  function ApplyPatch(info: ProductInfo, patch: Patch): ProductInfo
  {
    ProductInfo(
      if patch.name.Some? then patch.name.value else info.name,
      if patch.description.Some? then patch.description.value else info.description,
      if patch.price.Some? then patch.price.value else info.price,
      if patch.taxPercentage.Some? then patch.taxPercentage.value else info.taxPercentage,
      if patch.inStock.Some? then patch.inStock.value else info.inStock,
      if patch.isActive.Some? then patch.isActive.value else info.isActive)
  }

  /** The patch that rewrites every field with the given values. */
  function FullPatch(info: ProductInfo): Patch
  {
    Patch(Some(info.name), Some(info.description), Some(info.price),
          Some(info.taxPercentage), Some(info.inStock), Some(info.isActive))
  }

  function PatchRows(ps: seq<Product>, id: nat, patch: Patch): (r: seq<Product>)
    ensures |r| == |ps|
    ensures forall i :: 0 <= i < |ps| ==> r[i].id == ps[i].id
    ensures forall i :: 0 <= i < |ps| ==>
      r[i].info == (if ps[i].id == id then ApplyPatch(ps[i].info, patch) else ps[i].info)
  {
    if |ps| == 0 then []
    else
      var head := if ps[0].id == id then Product(id, ApplyPatch(ps[0].info, patch)) else ps[0];
      [head] + PatchRows(ps[1..], id, patch)
  }

  /** `updateProduct`: a partial update of the row with the id. Updating a
      row that is not there makes the database client throw. */
  function UpdateProduct(st: Store, id: nat, patch: Patch): (r: Step<()>)
    ensures r.result.Ok? <==> HasProductId(st.products, id)
    ensures r.result.Err? ==> r.result.error.Other? && r.store == st
    ensures |r.store.products| == |st.products|
    ensures forall i :: 0 <= i < |st.products| ==> r.store.products[i].id == st.products[i].id
    ensures forall i :: 0 <= i < |st.products| && st.products[i].id != id ==>
      r.store.products[i] == st.products[i]
    ensures forall i :: 0 <= i < |st.products| && st.products[i].id == id ==>
      r.store.products[i].info == ApplyPatch(st.products[i].info, patch)
    ensures r.store.users == st.users && r.store.sessions == st.sessions
    ensures r.store.photos == st.photos && r.store.blobs == st.blobs
  {
    if CountProducts(st.products, id) == 0 then
      Step(Err(Unexpected("Record to update not found.")), st)
    else
      Step(Ok(()), st.(products := PatchRows(st.products, id, patch)))
  }

  /** The rows without the id, each as often as it occurs, in store order. */
  function RemoveRows(ps: seq<Product>, id: nat): (r: seq<Product>)
    ensures forall p :: p in r <==> p in ps && p.id != id
    ensures forall p :: multiset(r)[p] == if p.id != id then multiset(ps)[p] else 0
    ensures |r| <= |ps|
  {
    if |ps| == 0 then []
    else
      var rest := RemoveRows(ps[1..], id);
      assert forall p :: p in ps <==> p == ps[0] || p in ps[1..];
      assert ps == [ps[0]] + ps[1..];
      if ps[0].id == id then rest else [ps[0]] + rest
  }

  /** `deleteProduct`: deletes the product row only; its photo rows and their
      bucket objects stay. Deleting a row that is not there makes the
      database client throw. */
  function DeleteProduct(st: Store, id: nat): (r: Step<()>)
    ensures r.result.Ok? <==> HasProductId(st.products, id)
    ensures r.result.Err? ==> r.result.error.Other? && r.store == st
    ensures !HasProductId(r.store.products, id)
    ensures forall p :: p in r.store.products <==> p in st.products && p.id != id
    ensures r.result.Ok? ==> r.store.products == RemoveRows(st.products, id)
    ensures r.store.users == st.users && r.store.sessions == st.sessions
    ensures r.store.photos == st.photos && r.store.blobs == st.blobs
  {
    if CountProducts(st.products, id) == 0 then
      Step(Err(Unexpected("Record to delete does not exist.")), st)
    else
      var rest := RemoveRows(st.products, id);
      Step(Ok(()), st.(products := rest))
  }

  // -----------------------------------------------------------------------
  // productExists, photoExists
  // -----------------------------------------------------------------------

  /** `prisma.products.count({ where: { id } })`. */
  function CountProducts(ps: seq<Product>, id: nat): (n: nat)
    ensures n > 0 <==> HasProductId(ps, id)
    ensures n <= |ps|
  {
    if |ps| == 0 then 0
    else
      var k := CountProducts(ps[1..], id);
      assert HasProductId(ps[1..], id) ==> HasProductId(ps, id) by {
        if HasProductId(ps[1..], id) {
          var i :| 0 <= i < |ps| - 1 && ps[1..][i].id == id;
          assert ps[i + 1].id == id;
        }
      }
      assert HasProductId(ps, id) && ps[0].id != id ==> HasProductId(ps[1..], id) by {
        if HasProductId(ps, id) && ps[0].id != id {
          var i :| 0 <= i < |ps| && ps[i].id == id;
          assert ps[1..][i - 1].id == id;
        }
      }
      (if ps[0].id == id then 1 else 0) + k
  }

  /** `productExists`: the count of rows with the id is positive. */
  function ProductExists(st: Store, id: nat): (b: bool)
    ensures b <==> exists i :: 0 <= i < |st.products| && st.products[i].id == id
  {
    CountProducts(st.products, id) > 0
  }

  /** `prisma.productPhotos.count({ where: { id } })`: photos are keyed by
      id, so the count is 0 or 1. */
  function CountPhotos(photos: map<nat, Photo>, id: nat): (n: nat)
    ensures n <= 1
    ensures n > 0 <==> id in photos
  {
    if id in photos then 1 else 0
  }

  /** `photoExists`: the count of rows with the id is positive. */
  function PhotoExists(st: Store, id: nat): (b: bool)
    ensures b <==> id in st.photos
  {
    CountPhotos(st.photos, id) > 0
  }

  // -----------------------------------------------------------------------
  // uploadPhoto, deletePhoto
  // -----------------------------------------------------------------------

  /** `photoName.split('.').pop()`: the last dot-separated segment. */
  function Extension(fileName: string): string
  {
    Last(Split(fileName, '.'))
  }

  /** The bucket key of a photo: `name + '.' + extension`. */
  function BlobKey(name: string, extension: string): string
  {
    name + "." + extension
  }

  /** `uploadPhoto`: creates the photo row first (the database generates its
      id and `name`), then writes the bucket object under the key built from
      that row. */
  function UploadPhoto(st: Store, productId: nat, fileName: string, photoId: nat, photoName: string)
    : (r: Step<nat>)
    requires photoId !in st.photos
    ensures r.result == Ok(photoId)
    ensures r.store.photos.Keys == st.photos.Keys + {photoId}
    ensures forall k :: k in st.photos ==> r.store.photos[k] == st.photos[k]
    ensures r.store.photos[photoId].productId == productId
    ensures r.store.photos[photoId].name == photoName
    ensures r.store.photos[photoId].extension == Extension(fileName)
    ensures r.store.blobs == st.blobs + {BlobKey(photoName, r.store.photos[photoId].extension)}
    ensures r.store.users == st.users && r.store.sessions == st.sessions
    ensures r.store.products == st.products
  {
    var extension := Extension(fileName);
    var row := Photo(photoName, extension, productId);
    var afterRow := st.(photos := st.photos[photoId := row]);
    var finalName := BlobKey(row.name, row.extension);
    Step(Ok(photoId), afterRow.(blobs := afterRow.blobs + {finalName}))
  }

  /** `deletePhoto`: deletes the photo row first, then the bucket object under
      the key built from the deleted row. Deleting a row that is not there
      makes the database client throw before the bucket is touched. */
  function DeletePhoto(st: Store, photoId: nat): (r: Step<()>)
    ensures r.result.Ok? <==> photoId in st.photos
    ensures r.result.Err? ==> r.result.error.Other? && r.store == st
    ensures r.store.photos.Keys == st.photos.Keys - {photoId}
    ensures forall k :: k in r.store.photos ==> r.store.photos[k] == st.photos[k]
    ensures photoId in st.photos ==>
      r.store.blobs == st.blobs - {BlobKey(st.photos[photoId].name, st.photos[photoId].extension)}
    ensures r.store.users == st.users && r.store.sessions == st.sessions
    ensures r.store.products == st.products
  {
    if photoId !in st.photos then
      Step(Err(Unexpected("Record to delete does not exist.")), st)
    else
      var row := st.photos[photoId];
      var afterRow := st.(photos := st.photos - {photoId});
      var fullName := BlobKey(row.name, row.extension);
      Step(Ok(()), afterRow.(blobs := afterRow.blobs - {fullName}))
  }

  // -----------------------------------------------------------------------
  // Properties
  // -----------------------------------------------------------------------

  /** The extension is the suffix after the last dot: it contains no dot, it
      ends the file name, and it is either the whole name or preceded by a
      dot. */
  lemma {:induction false} ExtensionIsSuffixAfterLastDot(fileName: string)
    ensures var e := Extension(fileName);
      && '.' !in e
      && |e| <= |fileName|
      && fileName[|fileName| - |e|..] == e
      && (|e| == |fileName| || fileName[|fileName| - |e| - 1] == '.')
    decreases |fileName|
  {
    if |fileName| > 0 {
      var init := fileName[..|fileName| - 1];
      var c := fileName[|fileName| - 1];
      assert init + [c] == fileName;
      ExtensionIsSuffixAfterLastDot(init);
      if c == '.' {
        SplitSnocSeparator(init, '.');
      } else {
        SplitSnocOther(init, c, '.');
        var e := Extension(init);
        assert Extension(fileName) == e + [c];
        assert fileName[|fileName| - |e| - 1..] == init[|init| - |e|..] + [c];
      }
    }
  }

  /** A file name without a dot is its own extension. */
  lemma ExtensionWithoutDot(fileName: string)
    requires '.' !in fileName
    ensures Extension(fileName) == fileName
  {
    ExtensionIsSuffixAfterLastDot(fileName);
  }

  /** The text after the last dot is the extension; a trailing dot gives the
      empty extension. */
  lemma ExtensionAfterLastDot(base: string, ext: string)
    requires '.' !in ext
    ensures Extension(base + "." + ext) == ext
  {
    var s := base + "." + ext;
    ExtensionIsSuffixAfterLastDot(s);
    var e := Extension(s);
    assert s[|base|] == '.';
    assert s[|s| - |ext|..] == ext;
  }

  /** Uploading a photo and then deleting it leaves the photo table and the
      bucket as they were: both steps build the same key from the row. */
  lemma UploadThenDeleteRestores(st: Store, productId: nat, fileName: string, photoId: nat, photoName: string)
    requires photoId !in st.photos
    requires BlobKey(photoName, Extension(fileName)) !in st.blobs
    ensures var up := UploadPhoto(st, productId, fileName, photoId, photoName);
      DeletePhoto(up.store, photoId) == Step(Ok(()), st)
  {
    var up := UploadPhoto(st, productId, fileName, photoId, photoName);
    var down := DeletePhoto(up.store, photoId);
    assert down.store.photos == st.photos;
    assert down.store.blobs == st.blobs;
  }

  lemma {:induction false} RemoveAbsentRows(ps: seq<Product>, id: nat)
    requires !HasProductId(ps, id)
    ensures RemoveRows(ps, id) == ps
    decreases |ps|
  {
    if |ps| > 0 {
      assert ps[0].id != id;
      RemoveAbsentRows(ps[1..], id);
      assert [ps[0]] + ps[1..] == ps;
    }
  }

  lemma {:induction false} RemoveRowsAppend(ps: seq<Product>, q: Product, id: nat)
    ensures RemoveRows(ps + [q], id) == RemoveRows(ps, id) + RemoveRows([q], id)
    decreases |ps|
  {
    if |ps| > 0 {
      assert (ps + [q])[1..] == ps[1..] + [q];
      RemoveRowsAppend(ps[1..], q, id);
    } else {
      assert ps + [q] == [q];
    }
  }

  /** The filter works row by row: filtering a concatenation filters each
      part and keeps them in order. With the one-row case of its definition
      this makes `Matching` the in-order subsequence of kept rows. */
  lemma {:induction false} MatchingAppend(a: seq<Product>, b: seq<Product>, query: Option<string>)
    ensures Matching(a + b, query) == Matching(a, query) + Matching(b, query)
    decreases |a|
  {
    if |a| == 0 {
      assert a + b == b;
    } else {
      var ab := a + b;
      assert ab[0] == a[0];
      assert ab[1..] == a[1..] + b;
      var head := if Keeps(query, a[0]) then [a[0]] else [];
      var left, right := Matching(a[1..], query), Matching(b, query);
      calc {
        Matching(ab, query);
        { MatchingStep(ab, query); }
        head + Matching(a[1..] + b, query);
        { MatchingAppend(a[1..], b, query); }
        head + (left + right);
        (head + left) + right;
        { MatchingStep(a, query); }
        Matching(a, query) + right;
      }
    }
  }

  /** One step of the filter: the first row, if kept, then the rest. */
  lemma MatchingStep(ps: seq<Product>, query: Option<string>)
    requires |ps| > 0
    ensures Matching(ps, query) == (if Keeps(query, ps[0]) then [ps[0]] else []) + Matching(ps[1..], query)
  {
  }

  /** Removing rows keeps the remaining product ids distinct. */
  lemma {:induction false} RemoveRowsKeepsUniqueIds(ps: seq<Product>, id: nat)
    requires UniqueProductIds(ps)
    ensures UniqueProductIds(RemoveRows(ps, id))
    decreases |ps|
  {
    if |ps| > 0 {
      var tail := ps[1..];
      UniqueTail(ps);
      RemoveRowsKeepsUniqueIds(tail, id);
      var rest := RemoveRows(tail, id);
      if ps[0].id != id {
        forall k | 0 <= k < |rest|
          ensures rest[k].id != ps[0].id
        {
          HeadIdNotInTail(ps, rest[k]);
        }
        UniqueCons(ps[0], rest);
      }
    }
  }

  lemma UniqueTail(ps: seq<Product>)
    requires |ps| > 0 && UniqueProductIds(ps)
    ensures UniqueProductIds(ps[1..])
  {
    var tail := ps[1..];
    forall i, j | 0 <= i < j < |tail|
      ensures tail[i].id != tail[j].id
    {
      assert tail[i] == ps[i + 1] && tail[j] == ps[j + 1];
    }
  }

  lemma HeadIdNotInTail(ps: seq<Product>, q: Product)
    requires |ps| > 0 && UniqueProductIds(ps) && q in ps[1..]
    ensures q.id != ps[0].id
  {
    var j :| 0 <= j < |ps[1..]| && ps[1..][j] == q;
    assert ps[j + 1] == q;
  }

  lemma UniqueCons(p: Product, rest: seq<Product>)
    requires UniqueProductIds(rest)
    requires forall k :: 0 <= k < |rest| ==> rest[k].id != p.id
    ensures UniqueProductIds([p] + rest)
  {
    var r := [p] + rest;
    forall i, j | 0 <= i < j < |r|
      ensures r[i].id != r[j].id
    {
      assert r[j] == rest[j - 1];
      if i > 0 {
        assert r[i] == rest[i - 1];
      }
    }
  }

  /** Creating a product and deleting it again restores the product table. */
  lemma CreateThenDeleteRestores(st: Store, info: ProductInfo, id: nat)
    requires !HasProductId(st.products, id)
    ensures DeleteProduct(CreateProduct(st, info, id).store, id) == Step(Ok(()), st)
  {
    var ps := st.products + [Product(id, info)];
    RemoveRowsAppend(st.products, Product(id, info), id);
    RemoveAbsentRows(st.products, id);
    assert RemoveRows([Product(id, info)], id) == [];
    assert RemoveRows(ps, id) == st.products;
    assert HasProductId(ps, id) by {
      assert ps[|st.products|].id == id;
    }
  }

  /** Every product the filter keeps is listed on page `i / 25 + 1`, at
      position `i % 25`, where `i` is its place in the ordered list. */
  lemma EveryMatchOnItsPage(st: Store, sort: SortOrder, sortBy: SortKey, query: Option<string>, i: nat)
    requires i < |Ordered(st, sort, sortBy, query)|
    ensures var r := GetProducts(st, i / PageSize + 1, sort, sortBy, query);
      r.Ok? && i % PageSize < |r.value|
      && r.value[i % PageSize] == ToListing(Ordered(st, sort, sortBy, query)[i])
  {
    PagePosition(i);
    var all := Ordered(st, sort, sortBy, query);
    var r := GetProducts(st, i / PageSize + 1, sort, sortBy, query);
    assert r.Ok? && Skip(i / PageSize + 1) < |all|;
  }

  /** Position `i` of the ordered list is slot `i % 25` of page `i / 25 + 1`. */
  lemma PagePosition(i: nat)
    ensures 0 <= Skip(i / PageSize + 1) && Skip(i / PageSize + 1) + i % PageSize == i
    ensures 0 <= i % PageSize < PageSize
  {
  }

  /** The ordered list holds exactly the rows the filter keeps, each as often
      as it occurs, in the requested order. */
  lemma OrderedIsSortedPermutation(st: Store, sort: SortOrder, sortBy: SortKey, query: Option<string>)
    ensures SortedBy(Ordered(st, sort, sortBy, query), sortBy, sort)
    ensures multiset(Ordered(st, sort, sortBy, query)) == multiset(Matching(st.products, query))
  {
  }

  /** The listing is that of a stored product the query keeps. */
  predicate ListedFrom(st: Store, query: Option<string>, l: Listing)
  {
    exists p :: p in st.products && Keeps(query, p) && ToListing(p) == l
  }

  /** A page lists only products of the store that the query keeps. */
  lemma ListedItemsMatch(st: Store, page: int, sort: SortOrder, sortBy: SortKey, query: Option<string>)
    requires page >= 1
    ensures forall k :: 0 <= k < |GetProducts(st, page, sort, sortBy, query).value| ==>
      ListedFrom(st, query, GetProducts(st, page, sort, sortBy, query).value[k])
  {
    var r := GetProducts(st, page, sort, sortBy, query);
    var all := Ordered(st, sort, sortBy, query);
    var m := Matching(st.products, query);
    OrderedIsSortedPermutation(st, sort, sortBy, query);
    assert multiset(all) == multiset(m);
    forall k | 0 <= k < |r.value|
      ensures ListedFrom(st, query, r.value[k])
    {
      assert Skip(page) + k < |all| && r.value[k] == ToListing(all[Skip(page) + k]);
      var p := all[Skip(page) + k];
      assert p in multiset(all);
      assert p in m;
      assert p in st.products && Keeps(query, p);
    }
  }

  /** Applying a patch twice is the same as applying it once. */
  lemma PatchIdempotent(info: ProductInfo, patch: Patch)
    ensures ApplyPatch(ApplyPatch(info, patch), patch) == ApplyPatch(info, patch)
  {
  }

  /** The empty patch changes nothing; a patch with every field overwrites
      every field. */
  lemma PatchExtremes(info: ProductInfo, other: ProductInfo)
    ensures ApplyPatch(info, Patch(None, None, None, None, None, None)) == info
    ensures ApplyPatch(other, FullPatch(info)) == info
  {
  }

  // -----------------------------------------------------------------------
  // The store invariant
  // -----------------------------------------------------------------------

  /** Creating a product under an id not yet in use keeps ids unique. */
  lemma CreateProductKeepsValid(st: Store, info: ProductInfo, id: nat)
    requires Valid(st) && !HasProductId(st.products, id)
    ensures Valid(CreateProduct(st, info, id).store)
  {
    var ps := CreateProduct(st, info, id).store.products;
    forall i, j | 0 <= i < j < |ps|
      ensures ps[i].id != ps[j].id
    {
      if j == |st.products| {
        assert ps[i] == st.products[i];
      } else {
        assert ps[i] == st.products[i] && ps[j] == st.products[j];
      }
    }
  }

  /** An update leaves every id in place. */
  lemma UpdateProductKeepsValid(st: Store, id: nat, patch: Patch)
    requires Valid(st)
    ensures Valid(UpdateProduct(st, id, patch).store)
  {
  }

  /** A deletion keeps the remaining ids unique. */
  lemma DeleteProductKeepsValid(st: Store, id: nat)
    requires Valid(st)
    ensures Valid(DeleteProduct(st, id).store)
  {
    RemoveRowsKeepsUniqueIds(st.products, id);
  }

  /** Photo uploads and deletions touch neither users, sessions nor products. */
  lemma PhotoOperationsKeepValid(st: Store, productId: nat, fileName: string, photoId: nat, photoName: string)
    requires Valid(st)
    ensures photoId !in st.photos ==> Valid(UploadPhoto(st, productId, fileName, photoId, photoName).store)
    ensures Valid(DeletePhoto(st, photoId).store)
  {
  }
}

=== FILE: results.dfy ===
/** Carriers shared by every module of the model: an optional value, and the
    outcome of an operation that either returns a value or throws. */
module Results {

  datatype Option<+T> = None | Some(value: T)

  /** `Err` stands for a thrown exception; `Ok` for a normal return. */
  datatype Result<+T, +E> = Ok(value: T) | Err(error: E)
}

=== FILE: scenarios.dfy ===
/** Whole-request scenarios: sequences of requests through the server, and
    what each reply and the store look like afterwards. */
module Scenarios {

  import opened Results
  import opened Errors
  import opened Entities
  import opened Http
  import opened Schemas
  import opened Server
  import opened PreHandlers
  import UsersController
  import ProductsController
  import ProductsService
  import AuthMiddleware

  /** Log-out with an expired session answers 401 `tokenExpired` and removes
      the session; the same request again answers 401 `tokenDoesNotExist`,
      as does log-out with a token that was never issued. */
  lemma LogOutWithExpiredSession(st: Store, req: Request, env: Env, env2: Env)
    requires FreshFor(env, st) && AuthHeaders(req.headers)
    requires var t := AuthMiddleware.ExtractToken(req.headers["authorization"]);
      t in st.sessions && st.sessions[t].expiresAt < env.now
    requires FreshFor(env2, Serve(Users(UsersController.LogOut), st, req, env).1)
    ensures var (reply, st1) := Serve(Users(UsersController.LogOut), st, req, env);
      && reply == Reply(Some(401), ErrorBody("tokenExpired", Message(TokenExpired)))
      && Serve(Users(UsersController.LogOut), st1, req, env2).0
         == Reply(Some(401), ErrorBody("tokenDoesNotExist", Message(TokenDoesNotExist)))
  {
    UsersController.LogOutValidatesFirst(st, req, env);
    var st1 := Serve(Users(UsersController.LogOut), st, req, env).1;
    UsersController.LogOutValidatesFirst(st1, req, env2);
  }

  /** Deleting a product that does not exist, with a live session, answers
      400 `productDoesNotExist` and changes nothing. */
  lemma DeleteMissingProduct(st: Store, req: Request, env: Env)
    requires FreshFor(env, st) && ProductsController.Validate(ProductsController.Delete, req).None?
    requires var t := ProductsController.Token(req);
      t in st.sessions && st.sessions[t].expiresAt >= env.now
    requires !HasProductId(st.products, ProductsController.ParamId(req, "productId"))
    ensures Serve(Products(ProductsController.Delete), st, req, env)
            == (Reply(Some(400), ErrorBody("productDoesNotExist", Message(ProductDoesNotExist))), st)
  {
    ProductsController.MissingProductStopsHandler(ProductsController.Delete, st, req, env);
  }

  /** Serving a photo upload to an existing product with a live session. */
  lemma ServeUpload(st: Store, up: Request, env: Env)
    requires FreshFor(env, st) && ProductsController.Validate(ProductsController.Upload, up).None?
    requires var t := ProductsController.Token(up);
      t in st.sessions && st.sessions[t].expiresAt >= env.now
    requires HasProductId(st.products, ProductsController.ParamId(up, "productId"))
    ensures var (r, st1) := Serve(Products(ProductsController.Upload), st, up, env);
      && r == Reply(Some(200), IdBody(env.photoId))
      && st1.products == st.products && st1.sessions == st.sessions && env.photoId in st1.photos
  {
    ProductsController.PhotoUpload(st, up, env);
  }

  /** Serving the deletion of an existing photo. */
  lemma ServeDeletePhoto(st: Store, del: Request, env: Env)
    requires FreshFor(env, st) && ProductsController.Validate(ProductsController.DeletePhoto, del).None?
    requires var t := ProductsController.Token(del);
      t in st.sessions && st.sessions[t].expiresAt >= env.now
    requires HasProductId(st.products, ProductsController.ParamId(del, "productId"))
    requires ProductsController.ParamId(del, "photoId") in st.photos
    ensures var (r, st1) := Serve(Products(ProductsController.DeletePhoto), st, del, env);
      && r == Reply(Some(204), Empty)
      && st1.products == st.products && st1.sessions == st.sessions
      && ProductsController.ParamId(del, "photoId") !in st1.photos
  {
    ProductsController.PhotoDeletion(st, del, env);
  }

  /** Serving the deletion of a photo that is not there, through an
      existing product's route. */
  lemma ServeMissingPhoto(st: Store, del: Request, env: Env)
    requires FreshFor(env, st) && ProductsController.Validate(ProductsController.DeletePhoto, del).None?
    requires var t := ProductsController.Token(del);
      t in st.sessions && st.sessions[t].expiresAt >= env.now
    requires HasProductId(st.products, ProductsController.ParamId(del, "productId"))
    requires ProductsController.ParamId(del, "photoId") !in st.photos
    ensures Serve(Products(ProductsController.DeletePhoto), st, del, env)
      == (Reply(Some(400), ErrorBody("productPhotoDoesNotExist", Message(ProductPhotoDoesNotExist))), st)
  {
    ProductsController.MissingPhotoStopsHandler(st, del, env);
  }

  /** A photo uploaded to a product can be deleted once (204); deleting it a
      second time answers 400 `productPhotoDoesNotExist`. `st1` and `st2` are
      the stores after the first and the second request. */
  lemma PhotoDeletedOnce(st: Store, st1: Store, st2: Store, up: Request, del: Request,
                         env: Env, env2: Env, env3: Env)
    requires FreshFor(env, st) && ProductsController.Validate(ProductsController.Upload, up).None?
    requires ProductsController.Validate(ProductsController.DeletePhoto, del).None?
    requires ProductsController.Token(up) == ProductsController.Token(del)
    requires var t := ProductsController.Token(up);
      t in st.sessions && st.sessions[t].expiresAt >= env.now
      && st.sessions[t].expiresAt >= env2.now && st.sessions[t].expiresAt >= env3.now
    requires ProductsController.ParamId(up, "productId") == ProductsController.ParamId(del, "productId")
    requires HasProductId(st.products, ProductsController.ParamId(up, "productId"))
    requires ProductsController.ParamId(del, "photoId") == env.photoId
    requires st1 == Serve(Products(ProductsController.Upload), st, up, env).1 && FreshFor(env2, st1)
    requires st2 == Serve(Products(ProductsController.DeletePhoto), st1, del, env2).1 && FreshFor(env3, st2)
    ensures Serve(Products(ProductsController.Upload), st, up, env).0 == Reply(Some(200), IdBody(env.photoId))
    ensures Serve(Products(ProductsController.DeletePhoto), st1, del, env2).0 == Reply(Some(204), Empty)
    ensures Serve(Products(ProductsController.DeletePhoto), st2, del, env3).0
      == Reply(Some(400), ErrorBody("productPhotoDoesNotExist", Message(ProductPhotoDoesNotExist)))
  {
    ServeUpload(st, up, env);
    ServeDeletePhoto(st1, del, env2);
    ServeMissingPhoto(st2, del, env3);
  }

  /** After creating a product and updating only its price, the product
      holds the new price with its other five fields kept, and the listing
      shows it: at its place `i` in the ordered rows, page `i / 25 + 1`
      lists its id, its name and the new price. */
  lemma PriceUpdateShowsOnItsPage(st: Store, info: ProductInfo, id: nat, newPrice: real,
                                  sort: ProductsService.SortOrder, sortBy: ProductsService.SortKey)
    requires !HasProductId(st.products, id)
    ensures var st1 := ProductsService.CreateProduct(st, info, id).store;
      var patch := ProductsService.Patch(None, None, Some(newPrice), None, None, None);
      var st2 := ProductsService.UpdateProduct(st1, id, patch).store;
      var all := ProductsService.Ordered(st2, sort, sortBy, None);
      exists i :: 0 <= i < |all| && all[i] == Product(id, info.(price := newPrice))
        && var r := ProductsService.GetProducts(st2, i / ProductsService.PageSize + 1, sort, sortBy, None);
           r.Ok? && i % ProductsService.PageSize < |r.value|
           && r.value[i % ProductsService.PageSize] == ProductsService.Listing(id, info.name, newPrice)
  {
    var st1 := ProductsService.CreateProduct(st, info, id).store;
    var patch := ProductsService.Patch(None, None, Some(newPrice), None, None, None);
    var st2 := ProductsService.UpdateProduct(st1, id, patch).store;
    var n := |st.products|;
    assert st1.products[n].id == id;
    assert HasProductId(st1.products, id);
    var p := st2.products[n];
    assert p == Product(id, info.(price := newPrice));
    assert p in st2.products;
    assert p in ProductsService.Matching(st2.products, None);
    ProductsService.OrderedIsSortedPermutation(st2, sort, sortBy, None);
    var all := ProductsService.Ordered(st2, sort, sortBy, None);
    assert p in multiset(all);
    var i :| 0 <= i < |all| && all[i] == p;
    ProductsService.EveryMatchOnItsPage(st2, sort, sortBy, None, i);
  }

  /** A deleted product is listed on no page, whatever the order and the
      query. */
  lemma DeletedProductOnNoPage(st: Store, id: nat, sort: ProductsService.SortOrder,
                               sortBy: ProductsService.SortKey, query: Option<string>)
    ensures var st1 := ProductsService.DeleteProduct(st, id).store;
      forall page: int, k ::
        (page >= 1 && 0 <= k < |ProductsService.GetProducts(st1, page, sort, sortBy, query).value|) ==>
        ProductsService.GetProducts(st1, page, sort, sortBy, query).value[k].id != id
  {
    var st1 := ProductsService.DeleteProduct(st, id).store;
    forall page: int, k | page >= 1 &&
      0 <= k < |ProductsService.GetProducts(st1, page, sort, sortBy, query).value|
      ensures ProductsService.GetProducts(st1, page, sort, sortBy, query).value[k].id != id
    {
      ProductsService.ListedItemsMatch(st1, page, sort, sortBy, query);
    }
  }
}

=== FILE: schemas.dfy ===
/** The request schemas: the product-info schema, the authentication body and
    header schemas, the route parameter patterns, and the custom `decimals`
    keyword. */
module Schemas {

  import opened Results
  import opened Text
  import opened Http

  // -----------------------------------------------------------------------
  // The `decimals` keyword
  // -----------------------------------------------------------------------

  /** A string with a dot splits into at least two segments, the second of
      which is the first segment after that dot. */
  lemma SplitAtDot(s: string, k: nat)
    requires IndexOf(s, ".") == Some(k)
    ensures k < |s| && s[k] == '.'
    ensures |Split(s, '.')| >= 2
    ensures Split(s, '.')[1] == Split(s[k + 1..], '.')[0]
  {
    assert "." <= s[k..];
    forall j | 0 <= j < k
      ensures s[..k][j] != '.'
    {
      assert !("." <= s[j..]);
    }
    assert s == s[..k] + ['.'] + s[k + 1..];
    SplitAtFirstSeparator(s[..k], '.', s[k + 1..]);
  }

  /** The compiled `decimals` keyword: a string without a dot passes; one with
      a dot passes when the second `split('.')` segment is at most
      `maxDecimals` long. */
  function Decimals(maxDecimals: int, dataStr: string): bool
  {
    match IndexOf(dataStr, ".")
    case None => true
    case Some(k) =>
      SplitAtDot(dataStr, k);
      |Split(dataStr, '.')[1]| <= maxDecimals
  }

  /** The text up to the first dot, or all of it. */
  function UpToDot(s: string): string
  {
    match IndexOf(s, ".")
    case None => s
    case Some(j) => s[..j]
  }

  /** The first `split('.')` segment is the text up to the first dot. */
  lemma FirstSegmentIsUpToDot(b: string)
    ensures Split(b, '.')[0] == UpToDot(b)
  {
    match IndexOf(b, ".")
    case None =>
      forall j | 0 <= j < |b|
        ensures b[j] != '.'
      {
        assert !("." <= b[j..]);
      }
      SplitWithoutSeparator(b, '.');
    case Some(j) =>
      assert "." <= b[j..];
      forall i | 0 <= i < j
        ensures b[..j][i] != '.'
      {
        assert !("." <= b[i..]);
      }
      assert b == b[..j] + ['.'] + b[j + 1..];
      SplitAtFirstSeparator(b[..j], '.', b[j + 1..]);
  }

  /** `decimals` accepts a dot-free string, and otherwise judges the text
      between the first dot and the next one (or the end). */
  lemma DecimalsMeaning(maxDecimals: int, dataStr: string)
    ensures IndexOf(dataStr, ".").None? ==> Decimals(maxDecimals, dataStr)
    ensures IndexOf(dataStr, ".").Some? ==>
      var k := IndexOf(dataStr, ".").value;
      k < |dataStr| &&
      (Decimals(maxDecimals, dataStr) <==> |UpToDot(dataStr[k + 1..])| <= maxDecimals)
  {
    if IndexOf(dataStr, ".").Some? {
      var k := IndexOf(dataStr, ".").value;
      SplitAtDot(dataStr, k);
      FirstSegmentIsUpToDot(dataStr[k + 1..]);
    }
  }

  /** For the plain decimal notation `whole.frac` the keyword bounds the
      number of fraction digits. */
  lemma DecimalsOfPlainNotation(maxDecimals: int, whole: string, frac: string)
    requires '.' !in whole && '.' !in frac
    ensures Decimals(maxDecimals, whole + "." + frac) <==> |frac| <= maxDecimals
  {
    var s := whole + "." + frac;
    assert s == whole + ['.'] + frac;
    SplitAtFirstSeparator(whole, '.', frac);
    SplitWithoutSeparator(frac, '.');
    var k := IndexOf(s, ".").value by {
      assert "." <= s[|whole|..];
    }
    SplitAtDot(s, k);
  }

  // -----------------------------------------------------------------------
  // The product-info schema
  // -----------------------------------------------------------------------

  /** The constraints of `baseProductSchema` on the fields present. The type
      constraints (string, number, boolean) hold by construction. */
  predicate ValidProductFields(f: ProductFields)
  {
    && (f.name.Some? ==> |f.name.value| <= 32)
    && (f.price.Some? ==> f.price.value.value >= 0.0 && Decimals(2, f.price.value.text))
    && (f.taxPercentage.Some? ==>
          0.0 <= f.taxPercentage.value.value <= 100.0 && Decimals(2, f.taxPercentage.value.text))
  }

  /** `required` lists all six fields (product creation). */
  predicate HasAllFields(f: ProductFields)
  {
    f.name.Some? && f.description.Some? && f.price.Some? && f.taxPercentage.Some?
      && f.inStock.Some? && f.isActive.Some?
  }

  /** `minProperties: 1` (product update). */
  predicate HasSomeField(f: ProductFields)
  {
    f.name.Some? || f.description.Some? || f.price.Some? || f.taxPercentage.Some?
      || f.inStock.Some? || f.isActive.Some?
  }

  /** A price written `whole.frac` is accepted exactly when it is not
      negative and has at most two fraction digits; a tax percentage also
      has to lie in [0, 100]. */
  lemma ProductNumbersMeaning(f: ProductFields, whole: string, frac: string)
    requires '.' !in whole && '.' !in frac
    ensures f.price.Some? && f.price.value.text == whole + "." + frac &&
            f.name.None? && f.taxPercentage.None? ==>
      (ValidProductFields(f) <==> f.price.value.value >= 0.0 && |frac| <= 2)
    ensures f.taxPercentage.Some? && f.taxPercentage.value.text == whole + "." + frac &&
            f.name.None? && f.price.None? ==>
      (ValidProductFields(f) <==>
        0.0 <= f.taxPercentage.value.value <= 100.0 && |frac| <= 2)
  {
    DecimalsOfPlainNotation(2, whole, frac);
  }

  /** What the product schema refuses: a name longer than 32 characters, a
      negative price, a tax percentage outside [0, 100]. The description and
      the two flags are never constrained, and a body with no field at all
      passes (creation and update add their own `required` and
      `minProperties`). */
  lemma ProductFieldLimits(f: ProductFields, d: string, b: bool)
    ensures f.name.Some? && |f.name.value| > 32 ==> !ValidProductFields(f)
    ensures f.price.Some? && f.price.value.value < 0.0 ==> !ValidProductFields(f)
    ensures f.taxPercentage.Some? && !(0.0 <= f.taxPercentage.value.value <= 100.0) ==> !ValidProductFields(f)
    ensures ValidProductFields(f) <==> ValidProductFields(f.(description := Some(d), inStock := Some(b), isActive := Some(b)))
    ensures ValidProductFields(ProductFields(None, None, None, None, None, None))
  {
  }

  /** `decimals: 2` on concrete numbers: `12.5` and `7` pass, `1.999` does
      not. */
  lemma DecimalsExamples()
    ensures Decimals(2, "12.5") && Decimals(2, "7") && !Decimals(2, "1.999")
  {
    DecimalsOfPlainNotation(2, "12", "5");
    assert "12" + "." + "5" == "12.5";
    DecimalsOfPlainNotation(2, "1", "999");
    assert "1" + "." + "999" == "1.999";
    DecimalsMeaning(2, "7");
    assert IndexOf("7", ".").None? by {
      assert !("." <= "7"[0..]);
    }
  }

  // -----------------------------------------------------------------------
  // Authentication schemas and route patterns
  // -----------------------------------------------------------------------

  /** `authReqBody`: an `email`-format email and a password of 8 to 32
      characters, both required. */
  predicate AuthReqBody(body: Body, isEmail: string -> bool)
  {
    && body.Credentials?
    && body.email.Some? && body.password.Some?
    && isEmail(body.email.value)
    && 8 <= |body.password.value| <= 32
  }

  predicate TokenChar(c: char)
  {
    ('a' <= c <= 'z') || ('0' <= c <= '9') || c == '-'
  }

  /** `^Basic [a-z0-9-]{36}$`. */
  predicate AuthHeaderPattern(h: string)
  {
    && |h| == 42
    && h[..6] == "Basic "
    && forall i :: 6 <= i < 42 ==> TokenChar(h[i])
  }

  /** `validateAuthHeaders`: the authorization header is required and matches
      the pattern. */
  predicate AuthHeaders(headers: map<string, string>)
  {
    "authorization" in headers && AuthHeaderPattern(headers["authorization"])
  }

  /** `^[0-9]+$` (id parameters). */
  predicate IdPattern(s: string)
  {
    |s| >= 1 && AllDigits(s)
  }

  /** `^[1-9][0-9]*$` (the `page` query parameter). */
  predicate PagePattern(s: string)
  {
    |s| >= 1 && AllDigits(s) && s[0] != '0'
  }

  /** A page that matches its pattern is a number of at least 1. */
  lemma PagePatternIsPositive(s: string)
    requires PagePattern(s)
    ensures ToNumber(s).Some? && ToNumber(s).value >= 1
  {
    LeadingNonZeroIsPositive(s);
  }

  /** An id parameter that matches its pattern is a number, and leading
      zeros do not change it: `/products/007` names product 7. */
  lemma IdPatternIsNumber(s: string)
    requires IdPattern(s)
    ensures ToNumber(s) == Some(DigitsValue(s))
    ensures IdPattern("0" + s) && ToNumber("0" + s) == ToNumber(s)
  {
    LeadingZeroIgnored(s);
  }

  /** Every id can be named in a path: its decimal text matches `^[0-9]+$`
      and converts back to it. */
  lemma EveryIdHasAPath(n: nat)
    ensures IdPattern(DecimalText(n)) && ToNumber(DecimalText(n)) == Some(n)
  {
    DecimalTextRoundTrip(n);
  }
}

=== FILE: server.dfy ===
/** The server assembly (utils/loaders.js): the route table under its
    prefixes and the global error handler that turns every thrown value into
    a reply. */
module Server {

  import opened Results
  import opened Errors
  import opened Entities
  import opened Http
  import opened PreHandlers
  import UsersController
  import ProductsController

  /** `setErrorHandler`: an AppError replies with its own status, type and
      message; any other error with status code 400 is a validation failure
      and keeps its message; everything else gets a fixed body and leaves the
      status to the framework. */
  function HandleError(err: Error): (reply: Reply)
    ensures err.App? ==>
      reply == Reply(Some(StatusCode(err.kind)), ErrorBody(TypeName(err.kind), Message(err.kind)))
    ensures err.Other? && err.statusCode == Some(400) ==>
      reply == Reply(Some(400), ErrorBody("validation", err.message))
    ensures err.Other? && err.statusCode != Some(400) ==>
      reply == Reply(None, ErrorBody("unknown", "an unknown error occurred"))
  {
    match err
    case App(kind) => Reply(Some(StatusCode(kind)), ErrorBody(TypeName(kind), Message(kind)))
    case Other(statusCode, message) =>
      if statusCode == Some(400) then Reply(Some(400), ErrorBody("validation", message))
      else Reply(None, ErrorBody("unknown", "an unknown error occurred"))
  }

  /** An AppError is recognised before the status test, so a 400 AppError
      still reports its own type; an unknown error's body does not depend on
      the error at all. */
  lemma ErrorHandlerOrder(k: Kind, a: Error, b: Error)
    requires a.Other? && a.statusCode != Some(400)
    requires b.Other? && b.statusCode != Some(400)
    ensures StatusCode(k) == 400 ==> HandleError(App(k)).body.error == TypeName(k) != "validation"
    ensures HandleError(a) == HandleError(b)
  {
  }

  /** Every domain error replies 400 or 401, and the two token errors are
      exactly the 401 ones. */
  lemma DomainStatusCodes(k: Kind)
    ensures HandleError(App(k)).status == Some(400) || HandleError(App(k)).status == Some(401)
    ensures HandleError(App(k)).status == Some(401) <==> k in {TokenDoesNotExist, TokenExpired}
  {
  }

  /** The routes, registered under the `users` and `products` prefixes. */
  datatype Endpoint =
    | Users(u: UsersController.Route)
    | Products(p: ProductsController.Route)

  /** Method and URL of each endpoint. */
  function RouteOf(e: Endpoint): (mp: (string, string))
    ensures e.Users? ==> mp.0 == "POST" && "/users/" <= mp.1
    ensures e.Products? ==> "/products/" <= mp.1
  {
    match e
    case Users(u) =>
      (match u
       case Register => ("POST", "/users/register")
       case LogIn => ("POST", "/users/log-in")
       case LogOut => ("POST", "/users/log-out"))
    case Products(p) =>
      match p
      case Create => ("POST", "/products/")
      case List => ("GET", "/products/")
      case Update => ("PATCH", "/products/:productId")
      case Delete => ("DELETE", "/products/:productId")
      case Upload => ("POST", "/products/:productId/photos")
      case DeletePhoto => ("DELETE", "/products/:productId/photos/:photoId")
  }

  /** No two endpoints share a method and URL. */
  lemma RouteTableIsUnambiguous(a: Endpoint, b: Endpoint)
    requires a != b
    ensures RouteOf(a) != RouteOf(b)
  {
  }

  /** One request, end to end: the route's outcome, with a thrown error
      turned into a reply by the error handler. */
  function Serve(e: Endpoint, st: Store, req: Request, env: Env): (Reply, Store)
    requires FreshFor(env, st)
  {
    var s := match e
      case Users(u) => UsersController.Handle(u, st, req, env)
      case Products(p) => ProductsController.Handle(p, st, req, env);
    match s.result
    case Ok(reply) => (reply, s.store)
    case Err(err) => (HandleError(err), s.store)
  }

  /** The schemas an endpoint's request is checked against first. */
  function SchemaCheck(e: Endpoint, req: Request, env: Env): Option<Error>
  {
    match e
    case Users(u) => UsersController.Validate(u, req, env)
    case Products(p) => ProductsController.Validate(p, req)
  }

  /** On every endpoint, a request that fails its schema is answered 400
      `validation` with the failing part as message, and the store is left
      exactly as it was. */
  lemma SchemaFailureAnswers400(e: Endpoint, st: Store, req: Request, env: Env)
    requires FreshFor(env, st) && SchemaCheck(e, req, env).Some?
    ensures Serve(e, st, req, env)
      == (Reply(Some(400), ErrorBody("validation", SchemaCheck(e, req, env).value.message)), st)
  {
  }

  /** A reply is an error body exactly when its status is neither 200 nor
      204, and a request answered with an error has at most dropped sessions:
      no user, product, photo or blob is written by a failed request. */
  lemma FailedRequestWritesNothing(e: Endpoint, st: Store, req: Request, env: Env)
    requires FreshFor(env, st)
    ensures var (reply, st') := Serve(e, st, req, env);
      && (reply.body.ErrorBody? <==> reply.status !in {Some(200), Some(204)})
      && (reply.body.ErrorBody? ==> OnlyDropsSessions(st, st'))
  {
    var s := match e
      case Users(u) => UsersController.Handle(u, st, req, env)
      case Products(p) => ProductsController.Handle(p, st, req, env);
    if s.result.Err? {
      match s.result.error
      case App(k) => DomainStatusCodes(k);
      case Other(_, _) =>
    }
  }
}

=== FILE: text.dfy ===
/** The string operations of the JavaScript runtime that the backend relies
    on, over strings as sequences of characters. */
module Text {

  import opened Results

  // ---------------------------------------------------------------------
  // split / join on a one-character separator
  // ---------------------------------------------------------------------

  /** `s.split(sep)` for a one-character separator: the maximal segments of
      `s` that do not contain `sep`, in order. */
  function Split(s: string, sep: char): (parts: seq<string>)
    ensures |parts| >= 1
    ensures forall i :: 0 <= i < |parts| ==> sep !in parts[i]
  {
    if |s| == 0 then [""]
    else if s[0] == sep then [""] + Split(s[1..], sep)
    else
      var rest := Split(s[1..], sep);
      [[s[0]] + rest[0]] + rest[1..]
  }

  /** `parts.join(sep)`. */
  function Join(parts: seq<string>, sep: char): string
    requires |parts| >= 1
  {
    if |parts| == 1 then parts[0] else parts[0] + [sep] + Join(parts[1..], sep)
  }

  function Last<T>(s: seq<T>): T
    requires |s| >= 1
  {
    s[|s| - 1]
  }

  /** Joining the segments back with the separator gives the original string. */
  lemma {:induction false} JoinSplit(s: string, sep: char)
    ensures Join(Split(s, sep), sep) == s
    decreases |s|
  {
    if |s| == 0 {
    } else if s[0] == sep {
      JoinSplit(s[1..], sep);
      assert [sep] + s[1..] == s;
    } else {
      var rest := Split(s[1..], sep);
      JoinSplit(s[1..], sep);
      var parts := [[s[0]] + rest[0]] + rest[1..];
      if |rest| == 1 {
        assert parts == [[s[0]] + s[1..]];
        assert [s[0]] + s[1..] == s;
      } else {
        assert parts[1..] == rest[1..];
        calc {
          Join(parts, sep);
          ([s[0]] + rest[0]) + [sep] + Join(rest[1..], sep);
          [s[0]] + (rest[0] + [sep] + Join(rest[1..], sep));
          [s[0]] + Join(rest, sep);
          [s[0]] + s[1..];
        }
        assert [s[0]] + s[1..] == s;
      }
    }
  }

  /** A string without the separator is a single segment. */
  lemma {:induction false} SplitWithoutSeparator(s: string, sep: char)
    requires sep !in s
    ensures Split(s, sep) == [s]
    decreases |s|
  {
    if |s| > 0 {
      assert sep !in s[1..];
      SplitWithoutSeparator(s[1..], sep);
      assert [s[0]] + s[1..] == s;
    }
  }

  /** The first segment ends at the first separator. */
  lemma {:induction false} SplitAtFirstSeparator(a: string, sep: char, b: string)
    requires sep !in a
    ensures Split(a + [sep] + b, sep) == [a] + Split(b, sep)
    decreases |a|
  {
    var s := a + [sep] + b;
    if |a| == 0 {
      assert s[0] == sep && s[1..] == b;
    } else {
      assert s[0] == a[0] && s[1..] == a[1..] + [sep] + b;
      assert sep !in a[1..];
      SplitAtFirstSeparator(a[1..], sep, b);
      assert [a[0]] + a[1..] == a;
    }
  }

  /** Appending the separator opens a new, empty last segment. */
  lemma {:induction false} SplitSnocSeparator(s: string, sep: char)
    ensures Split(s + [sep], sep) == Split(s, sep) + [""]
    decreases |s|
  {
    var t := s + [sep];
    if |s| == 0 {
      assert t[1..] == [];
    } else {
      assert t[0] == s[0] && t[1..] == s[1..] + [sep];
      SplitSnocSeparator(s[1..], sep);
      var rest := Split(s[1..], sep);
      var rest' := Split(s[1..] + [sep], sep);
      assert rest' == rest + [""];
      if s[0] != sep {
        assert rest'[0] == rest[0];
        assert rest'[1..] == rest[1..] + [""];
      }
    }
  }

  /** Appending any other character extends the last segment. */
  lemma {:induction false} SplitSnocOther(s: string, c: char, sep: char)
    requires c != sep
    ensures
      var p := Split(s, sep);
      Split(s + [c], sep) == p[..|p| - 1] + [Last(p) + [c]]
    decreases |s|
  {
    var t := s + [c];
    if |s| == 0 {
      assert t == [c] && t[1..] == [];
      assert Split(t, sep) == [[c] + ""];
      assert Split(s, sep) == [""];
      assert [c] + "" == "" + [c];
    } else {
      assert t[0] == s[0] && t[1..] == s[1..] + [c];
      SplitSnocOther(s[1..], c, sep);
      var rest := Split(s[1..], sep);
      var rest' := Split(s[1..] + [c], sep);
      assert rest' == rest[..|rest| - 1] + [Last(rest) + [c]];
      if s[0] == sep {
        assert [""] + (rest[..|rest| - 1] + [Last(rest) + [c]])
            == ([""] + rest)[..|rest|] + [Last(rest) + [c]];
      } else if |rest| == 1 {
        assert rest'[0] == rest[0] + [c];
        assert rest'[1..] == [];
        assert [s[0]] + (rest[0] + [c]) == ([s[0]] + rest[0]) + [c];
      } else {
        assert rest'[0] == rest[0];
        assert rest'[1..] == rest[1..|rest| - 1] + [Last(rest) + [c]];
      }
    }
  }

  // ---------------------------------------------------------------------
  // searching
  // ---------------------------------------------------------------------

  /** First position at or after `from` where `pat` occurs in `s`, as
      `String.prototype.indexOf`; `None` stands for -1. */
  function IndexOfFrom(s: string, pat: string, from: nat): (r: Option<nat>)
    requires from <= |s|
    ensures r.Some? ==> from <= r.value <= |s| && pat <= s[r.value..]
    ensures r.Some? ==> forall j :: from <= j < r.value ==> !(pat <= s[j..])
    ensures r.None? ==> forall j :: from <= j <= |s| ==> !(pat <= s[j..])
    decreases |s| - from
  {
    if pat <= s[from..] then Some(from)
    else if from == |s| then None
    else IndexOfFrom(s, pat, from + 1)
  }

  function IndexOf(s: string, pat: string): Option<nat>
  {
    IndexOfFrom(s, pat, 0)
  }

  /** `s.includes(q)`: some position of `s` starts with `q`. */
  predicate Contains(s: string, q: string)
  {
    IndexOf(s, q).Some?
  }

  /** Containment holds exactly when `q` occurs at some position. */
  lemma ContainsIffOccurs(s: string, q: string)
    ensures Contains(s, q) <==> exists i :: 0 <= i <= |s| && q <= s[i..]
  {
    if Contains(s, q) {
      var i := IndexOf(s, q).value;
      assert q <= s[i..];
    }
  }

  /** `s.replace(pat, '')` with a string pattern: only the first occurrence
      of `pat` is removed. */
  function RemoveFirst(s: string, pat: string): (r: string)
    ensures IndexOf(s, pat).None? ==> r == s
    ensures IndexOf(s, pat).Some? ==>
      var k := IndexOf(s, pat).value;
      |r| == |s| - |pat| && r[..k] == s[..k] && r[k..] == s[k + |pat|..]
  {
    match IndexOf(s, pat)
    case None => s
    case Some(k) =>
      assert k + |pat| <= |s|;
      s[..k] + s[k + |pat|..]
  }

  /** A string that starts with the pattern loses exactly that prefix, even
      when the pattern occurs again later. */
  lemma RemoveFirstOfPrefixed(pat: string, t: string)
    ensures RemoveFirst(pat + t, pat) == t
  {
    var s := pat + t;
    assert pat <= s[0..];
    assert IndexOf(s, pat) == Some(0);
    assert s[|pat|..] == t;
  }

  // ---------------------------------------------------------------------
  // ordering and digits
  // ---------------------------------------------------------------------

  /** Lexicographic order on character codes; a prefix comes first. */
  predicate LexLe(a: string, b: string)
  {
    |a| == 0 || (|b| > 0 && (a[0] < b[0] || (a[0] == b[0] && LexLe(a[1..], b[1..]))))
  }

  lemma {:induction false} LexTotal(a: string, b: string)
    ensures LexLe(a, b) || LexLe(b, a)
    decreases |a|
  {
    if |a| > 0 && |b| > 0 && a[0] == b[0] {
      LexTotal(a[1..], b[1..]);
    }
  }

  predicate IsDigit(c: char)
  {
    '0' <= c <= '9'
  }

  predicate AllDigits(s: string)
  {
    forall i :: 0 <= i < |s| ==> IsDigit(s[i])
  }

  /** Decimal value of a string of digits. */
  function DigitsValue(s: string): nat
    requires AllDigits(s)
  {
    if |s| == 0 then 0
    else DigitsValue(s[..|s| - 1]) * 10 + ((s[|s| - 1] as int) - ('0' as int))
  }

  /** A digit string whose first digit is not zero denotes a positive number. */
  lemma {:induction false} LeadingNonZeroIsPositive(s: string)
    requires |s| >= 1 && AllDigits(s) && s[0] != '0'
    ensures DigitsValue(s) >= 1
    decreases |s|
  {
    if |s| > 1 {
      var init := s[..|s| - 1];
      assert init[0] == s[0];
      LeadingNonZeroIsPositive(init);
    }
  }

  /** A leading zero does not change a digit string's value. */
  lemma {:induction false} LeadingZeroIgnored(s: string)
    requires AllDigits(s)
    ensures AllDigits("0" + s) && DigitsValue("0" + s) == DigitsValue(s)
    decreases |s|
  {
    var z := "0" + s;
    if |s| > 0 {
      LeadingZeroIgnored(s[..|s| - 1]);
      assert z[..|z| - 1] == "0" + s[..|s| - 1];
      assert z[|z| - 1] == s[|s| - 1];
    } else {
      assert z == "0";
      assert z[..0] == "";
    }
  }

  /** The shortest decimal text of a number, as `String(n)` writes it. */
  function DecimalText(n: nat): string
  {
    if n < 10 then [(('0' as int) + n) as char]
    else DecimalText(n / 10) + [(('0' as int) + n % 10) as char]
  }

  /** Decimal text reads back as the number it was written from. */
  lemma {:induction false} DecimalTextRoundTrip(n: nat)
    ensures |DecimalText(n)| >= 1 && AllDigits(DecimalText(n))
    ensures DigitsValue(DecimalText(n)) == n
  {
    var t := DecimalText(n);
    if n >= 10 {
      DecimalTextRoundTrip(n / 10);
      assert t[..|t| - 1] == DecimalText(n / 10);
      assert forall i :: 0 <= i < |t| - 1 ==> t[i] == DecimalText(n / 10)[i];
    } else {
      assert t[..0] == "";
    }
  }

  /** Unary `+` applied to a string, for the strings the routes admit: the
      empty string is 0 and a digit string is its decimal value. Any other
      string is outside the model and gives `None`. */
  function ToNumber(s: string): Option<nat>
  {
    if AllDigits(s) then Some(DigitsValue(s)) else None
  }
}

=== FILE: users_controller.dfy ===
/** The users routes (users/controller.js): register, log-in and log-out,
    each as schema validation, then pre-handlers, then the handler. */
module UsersController {

  import opened Results
  import opened Errors
  import opened Entities
  import opened Http
  import opened Schemas
  import opened PreHandlers
  import UsersService
  import AuthMiddleware

  datatype Route = Register | LogIn | LogOut

  /** The `preHandler` list of each route. */
  function PreHandlerList(r: Route): (checks: seq<Check>)
    ensures r != LogOut ==> checks == []
    ensures r == LogOut ==> checks == [Authenticated]
  {
    match r
    case Register => []
    case LogIn => []
    case LogOut => [Authenticated]
  }

  /** The route schemas, which the framework checks before the pre-handlers.
      Log-in is checked against `authReqBody` like register; the schema as
      written is `LogInSchemaAsWritten`. */
  function Validate(r: Route, req: Request, env: Env): (e: Option<Error>)
    ensures r != LogOut ==> (e.None? <==> AuthReqBody(req.body, env.isEmail))
    ensures r == LogOut ==> (e.None? <==> AuthHeaders(req.headers))
    ensures e.Some? ==> e.value.Other? && e.value.statusCode == Some(400)
  {
    match r
    case Register => if AuthReqBody(req.body, env.isEmail) then None else Some(Invalid("body"))
    case LogIn => if AuthReqBody(req.body, env.isEmail) then None else Some(Invalid("body"))
    case LogOut => if AuthHeaders(req.headers) then None else Some(Invalid("headers"))
  }

  /** The log-in body schema as written, `{ body: { $ref: 'authReqBody#' } }`:
      the framework reads it as an object whose optional `body` property is
      an `authReqBody`, so the top-level `email` and `password` are not
      constrained at all. */
  function LogInSchemaAsWritten(req: Request): (e: Option<Error>)
    ensures e.None? <==> req.body.Credentials?
  {
    if req.body.Credentials? then None else Some(Invalid("body"))
  }

  /** What the handlers read from the request. */
  predicate Readable(r: Route, req: Request)
  {
    match r
    case Register => req.body.Credentials? && req.body.email.Some? && req.body.password.Some?
    case LogIn => req.body.Credentials?
    case LogOut => "authorization" in req.headers
  }

  /** The route handlers. */
  function Handler(r: Route, st: Store, req: Request, env: Env): (out: Step<Reply>)
    requires FreshFor(env, st) && Readable(r, req)
    ensures out.result.Ok? ==> out.result.value.status == Some(if r == LogOut then 204 else 200)
    ensures r == LogOut ==> out.store == UsersService.LogOut(st, AuthMiddleware.ExtractToken(req.headers["authorization"])).store
    ensures out.result.Ok? ==> !out.result.value.body.ErrorBody?
    ensures out.result.Err? ==> out.store == st
    ensures r == LogIn ==>
      var s := UsersService.LogIn(st, req.body.email, req.body.password, env.matches, env.now, env.token);
      && out.store == s.store
      && (s.result.Ok? ==> out.result == Ok(Reply(Some(200), LoginBody(s.result.value))))
      && (s.result.Err? ==> out.result == Err(s.result.error))
  {
    match r
    case Register =>
      var s := UsersService.Register(st, req.body.email.value, req.body.password.value,
                                     env.hash, env.now, env.userId, env.token);
      Step(if s.result.Ok? then Ok(Reply(Some(200), LoginBody(s.result.value))) else Err(s.result.error),
           s.store)
    case LogIn =>
      var s := UsersService.LogIn(st, req.body.email, req.body.password, env.matches, env.now, env.token);
      Step(if s.result.Ok? then Ok(Reply(Some(200), LoginBody(s.result.value))) else Err(s.result.error),
           s.store)
    case LogOut =>
      var s := UsersService.LogOut(st, AuthMiddleware.ExtractToken(req.headers["authorization"]));
      Step(if s.result.Ok? then Ok(Reply(Some(204), Empty)) else Err(s.result.error), s.store)
  }

  /** Pre-handlers, then the handler if they all pass. */
  function Run(r: Route, st: Store, req: Request, env: Env): (out: Step<Reply>)
    requires FreshFor(env, st) && Readable(r, req)
    ensures RunChain(PreHandlerList(r), st, req, env.now).result.Err? ==>
      out == Step(Err(RunChain(PreHandlerList(r), st, req, env.now).result.error),
                  RunChain(PreHandlerList(r), st, req, env.now).store)
    ensures r != LogOut ==> out == Handler(r, st, req, env)
    ensures RunChain(PreHandlerList(r), st, req, env.now).result.Ok? ==> out == Handler(r, st, req, env)
    ensures out.result.Err? ==> OnlyDropsSessions(st, out.store)
    ensures out.result.Ok? ==> !out.result.value.body.ErrorBody?
  {
    var pre := RunChain(PreHandlerList(r), st, req, env.now);
    if pre.result.Err? then Step(Err(pre.result.error), pre.store)
    else Handler(r, pre.store, req, env)
  }

  /** A request to one of the routes. */
  function Handle(r: Route, st: Store, req: Request, env: Env): (out: Step<Reply>)
    requires FreshFor(env, st)
    ensures Validate(r, req, env).Some? ==> out == Step(Err(Validate(r, req, env).value), st)
    ensures out.result.Err? ==> OnlyDropsSessions(st, out.store)
    ensures out.result.Ok? ==> !out.result.value.body.ErrorBody?
    ensures out.result.Ok? ==> out.result.value.status in {Some(200), Some(204)}
  {
    match Validate(r, req, env)
    case Some(e) => Step(Err(e), st)
    case None => Run(r, st, req, env)
  }

  /** A log-in request under the schema as written. */
  function LogInAsWritten(st: Store, req: Request, env: Env): (out: Step<Reply>)
    requires FreshFor(env, st)
    ensures !req.body.Credentials? ==> out.result.Err? && out.store == st
    ensures req.body.Credentials? ==>
      var s := UsersService.LogIn(st, req.body.email, req.body.password, env.matches, env.now, env.token);
      && out.store == s.store
      && (s.result.Ok? ==> out.result == Ok(Reply(Some(200), LoginBody(s.result.value))))
      && (s.result.Err? ==> out.result == Err(s.result.error))
  {
    match LogInSchemaAsWritten(req)
    case Some(e) => Step(Err(e), st)
    case None => Run(LogIn, st, req, env)
  }

  // -----------------------------------------------------------------------
  // Properties
  // -----------------------------------------------------------------------

  /** Log-out validates the token before deleting anything: an unknown token
      and an expired one are refused with the validation's error (the expired
      session is gone), and only a live session is deleted, with a 204. */
  lemma LogOutValidatesFirst(st: Store, req: Request, env: Env)
    requires FreshFor(env, st) && AuthHeaders(req.headers)
    ensures var t := AuthMiddleware.ExtractToken(req.headers["authorization"]);
      var out := Handle(LogOut, st, req, env);
      && (t !in st.sessions ==> out == Step(Err(App(TokenDoesNotExist)), st))
      && (t in st.sessions && st.sessions[t].expiresAt < env.now ==>
            out.result == Err(App(TokenExpired)) && out.store == st.(sessions := st.sessions - {t}))
      && (t in st.sessions && st.sessions[t].expiresAt >= env.now ==>
            out.result == Ok(Reply(Some(204), Empty)) && out.store == st.(sessions := st.sessions - {t}))
  {
  }

  /** Register runs no pre-handler: a valid request gets exactly the
      outcome of `register` on the body's email and password. */
  lemma RegisterCallsServiceDirectly(st: Store, req: Request, env: Env)
    requires FreshFor(env, st) && AuthReqBody(req.body, env.isEmail)
    ensures var s := UsersService.Register(st, req.body.email.value, req.body.password.value,
                                           env.hash, env.now, env.userId, env.token);
      var out := Handle(Register, st, req, env);
      && out.store == s.store
      && (out.result.Ok? <==> s.result.Ok?)
      && (s.result.Ok? ==> out.result.value == Reply(Some(200), LoginBody(s.result.value)))
      && (s.result.Err? ==> out.result.error == s.result.error)
  {
  }

  /** Log-in runs no pre-handler either: a valid request gets exactly the
      outcome of `logIn` on the body's email and password, and its session
      belongs to the user that owns the email. */
  lemma LogInCallsServiceDirectly(st: Store, req: Request, env: Env)
    requires FreshFor(env, st) && AuthReqBody(req.body, env.isEmail)
    ensures var s := UsersService.LogIn(st, req.body.email, req.body.password, env.matches, env.now, env.token);
      var out := Handle(LogIn, st, req, env);
      && out.store == s.store
      && (out.result.Ok? <==> s.result.Ok?)
      && (s.result.Ok? ==> out.result.value == Reply(Some(200), LoginBody(s.result.value)))
      && (s.result.Err? ==> out.result.error == s.result.error)
  {
  }

  /** A credentials route refuses exactly the bodies `authReqBody` refuses,
      with a 400 before anything is stored: a password shorter than 8 or
      longer than 32 characters, a missing field, or an email the format
      check rejects. */
  lemma CredentialRoutesCheckAuthReqBody(r: Route, st: Store, req: Request, env: Env)
    requires FreshFor(env, st) && r != LogOut
    ensures !AuthReqBody(req.body, env.isEmail) ==> Handle(r, st, req, env) == Step(Err(Invalid("body")), st)
    ensures req.body.Credentials? && req.body.password.Some? &&
            (|req.body.password.value| < 8 || |req.body.password.value| > 32) ==>
      Handle(r, st, req, env).result == Err(Invalid("body"))
  {
  }

  /** Under the schema as written, log-in accepts a body that `authReqBody`
      refuses, such as a three-character password. */
  lemma LogInSchemaAsWrittenSkipsLimits(email: string, env: Env)
    ensures var req := Request(map[], map[], map[], Credentials(Some(email), Some("abc")));
      LogInSchemaAsWritten(req).None? && Validate(LogIn, req, env).Some?
  {
  }

  /** Under the schema as written, a log-in body without an email logs in as
      the first user in the table whenever the password matches that user's
      hash: the undefined email filters nothing. */
  lemma LogInWithoutEmailPicksFirstUser(st: Store, password: string, env: Env)
    requires FreshFor(env, st) && |st.users| > 0
    requires env.matches(password, st.users[0].password)
    ensures var req := Request(map[], map[], map[], Credentials(None, Some(password)));
      var out := LogInAsWritten(st, req, env);
      && out.result.Ok?
      && out.store.sessions[env.token].createdById == st.users[0].id
  {
    assert UsersService.Selects(None, st.users[0]);
  }

  /** With the body validated, a successful log-in opens a session for the
      user that owns the email given. */
  lemma LogInSessionBelongsToNamedUser(st: Store, req: Request, env: Env)
    requires FreshFor(env, st)
    requires Handle(LogIn, st, req, env).result.Ok?
    ensures req.body.Credentials? && req.body.email.Some?
    ensures var out := Handle(LogIn, st, req, env);
      exists i :: 0 <= i < |st.users| && st.users[i].email == req.body.email.value
        && out.store.sessions[env.token].createdById == st.users[i].id
  {
  }
}

=== FILE: users_service.dfy ===
/** Registration, log-in, log-out and token validation: transitions of the
    session table (users/service.js). */
module UsersService {

  import opened Results
  import opened Errors
  import opened Entities

  /** `dayjs().add(7, 'days')`, on a millisecond clock. */
  const SessionLifetime: int := 7 * 24 * 60 * 60 * 1000

  /** The reply of register and log-in. `userEmail` is absent when the user
      row was read without its email. */
  datatype LoginInfo = LoginInfo(userEmail: Option<string>, sessionId: string, sessionExpiresAt: int)

  /** `prisma.users.count({ where: { email } })`. */
  function CountUsersWithEmail(users: seq<User>, email: string): (n: nat)
    ensures n > 0 <==> HasUserEmail(users, email)
    ensures n <= |users|
  {
    if |users| == 0 then 0
    else
      var k := CountUsersWithEmail(users[1..], email);
      assert HasUserEmail(users[1..], email) ==> HasUserEmail(users, email) by {
        if HasUserEmail(users[1..], email) {
          var i :| 0 <= i < |users| - 1 && users[1..][i].email == email;
          assert users[i + 1].email == email;
        }
      }
      assert HasUserEmail(users, email) && users[0].email != email ==> HasUserEmail(users[1..], email) by {
        if HasUserEmail(users, email) && users[0].email != email {
          var i :| 0 <= i < |users| && users[i].email == email;
          assert users[1..][i - 1].email == email;
        }
      }
      (if users[0].email == email then 1 else 0) + k
  }

  /** Whether a `where: { email }` filter keeps a user; an undefined email
      filters nothing. */
  predicate Selects(email: Option<string>, u: User)
  {
    email.None? || u.email == email.value
  }

  /** `prisma.users.findFirst({ where: { email } })` from position `from`:
      the first row, in the store's order, that the filter keeps. The query
      has no `orderBy`, so the database is free to return any kept row; the
      model fixes the store's order. With unique emails this only matters
      when the filter is empty. */
  function FirstUserFrom(users: seq<User>, email: Option<string>, from: nat): (r: Option<nat>)
    requires from <= |users|
    ensures r.Some? ==> from <= r.value < |users| && Selects(email, users[r.value])
    ensures r.Some? ==> forall j :: from <= j < r.value ==> !Selects(email, users[j])
    ensures r.None? ==> forall j :: from <= j < |users| ==> !Selects(email, users[j])
    decreases |users| - from
  {
    if from == |users| then None
    else if Selects(email, users[from]) then Some(from)
    else FirstUserFrom(users, email, from + 1)
  }

  function FirstUser(users: seq<User>, email: Option<string>): Option<nat>
  {
    FirstUserFrom(users, email, 0)
  }

  /** `genLoginInfo`: opens a session for the user, valid for seven days from
      `now`, and reports it. */
  function GenLoginInfo(st: Store, userId: nat, userEmail: Option<string>, now: int, token: string)
    : (r: Step<LoginInfo>)
    requires token !in st.sessions
    ensures r.result.Ok? && r.result.value.userEmail == userEmail
    ensures r.result.value.sessionId == token
    ensures r.store.sessions.Keys == st.sessions.Keys + {token}
    ensures r.store.sessions[token].createdById == userId
    ensures r.store.sessions[token].expiresAt == r.result.value.sessionExpiresAt == now + SessionLifetime
    ensures forall t :: t in st.sessions ==> r.store.sessions[t] == st.sessions[t]
    ensures r.store.users == st.users && r.store.products == st.products
    ensures r.store.photos == st.photos && r.store.blobs == st.blobs
  {
    var expiresAt := now + SessionLifetime;
    Step(Ok(LoginInfo(userEmail, token, expiresAt)),
         st.(sessions := st.sessions[token := Session(expiresAt, userId)]))
  }

  /** `register`: refuses an email that is already counted; otherwise stores
      the user with the hashed password and opens its first session.
      `hash` is bcrypt with the salt drawn for this call; `userId` and
      `token` are the keys the database generates. */
  function Register(st: Store, email: string, password: string, hash: string -> string,
                    now: int, userId: nat, token: string): (r: Step<LoginInfo>)
    requires token !in st.sessions && !HasUserId(st.users, userId)
    ensures HasUserEmail(st.users, email) ==> r == Step(Err(App(EmailInUse)), st)
    ensures !HasUserEmail(st.users, email) ==>
      && r.result.Ok?
      && r.store.users == st.users + [User(userId, email, hash(password))]
      && r.result.value.userEmail == Some(email)
      && r.result.value.sessionId == token
      && r.store.sessions.Keys == st.sessions.Keys + {token}
      && r.store.sessions[token] == Session(now + SessionLifetime, userId)
      && r.result.value.sessionExpiresAt == r.store.sessions[token].expiresAt
      && (forall t :: t in st.sessions ==> r.store.sessions[t] == st.sessions[t])
    ensures r.store.products == st.products && r.store.photos == st.photos && r.store.blobs == st.blobs
  {
    if CountUsersWithEmail(st.users, email) > 0 then
      Step(Err(App(EmailInUse)), st)
    else
      var user := User(userId, email, hash(password));
      GenLoginInfo(st.(users := st.users + [user]), user.id, Some(user.email), now, token)
  }

  /** `logIn`: finds the first user for the email, compares the password with
      the stored hash, and opens a new session. `matches` is bcrypt's
      `compareSync`; an undefined password makes it throw. The user row is
      read without its email, so the reply has no `userEmail`. */
  function LogIn(st: Store, email: Option<string>, password: Option<string>,
                 matches: (string, string) -> bool, now: int, token: string): (r: Step<LoginInfo>)
    requires token !in st.sessions
    ensures (forall j :: 0 <= j < |st.users| ==> !Selects(email, st.users[j])) ==>
      r == Step(Err(App(UserDoesNotExist)), st)
    ensures r.result.Ok? <==>
      exists i :: 0 <= i < |st.users| && Selects(email, st.users[i]) && password.Some?
        && matches(password.value, st.users[i].password)
        && (forall j :: 0 <= j < i ==> !Selects(email, st.users[j]))
    ensures r.result.Err? ==> r.store == st
    ensures r.result.Ok? ==>
      && r.result.value.userEmail == None
      && r.result.value.sessionId == token
      && r.store.sessions.Keys == st.sessions.Keys + {token}
      && r.store.sessions[token].expiresAt == r.result.value.sessionExpiresAt == now + SessionLifetime
      && (exists i :: 0 <= i < |st.users| && Selects(email, st.users[i])
            && r.store.sessions[token].createdById == st.users[i].id)
    ensures FirstUser(st.users, email).Some? && password.None? ==>
      r.result.Err? && r.result.error.Other? && r.store == st
    ensures FirstUser(st.users, email).Some? && password.Some? &&
            !matches(password.value, st.users[FirstUser(st.users, email).value].password) ==>
      r == Step(Err(App(WrongPassword)), st)
    ensures r.result.Ok? ==>
      FirstUser(st.users, email).Some? &&
      r.store.sessions[token] == Session(now + SessionLifetime, st.users[FirstUser(st.users, email).value].id)
    ensures forall t :: t in st.sessions ==> t in r.store.sessions && r.store.sessions[t] == st.sessions[t]
    ensures r.store.users == st.users && r.store.products == st.products
    ensures r.store.photos == st.photos && r.store.blobs == st.blobs
  {
    match FirstUser(st.users, email)
    case None => Step(Err(App(UserDoesNotExist)), st)
    case Some(i) =>
      var user := st.users[i];
      if password.None? then
        Step(Err(Unexpected("data and hash arguments required")), st)
      else if !matches(password.value, user.password) then
        Step(Err(App(WrongPassword)), st)
      else
        GenLoginInfo(st, user.id, None, now, token)
  }

  /** `logOut`: deletes the session row with the token. Deleting a row that
      is not there makes the database client throw. */
  function LogOut(st: Store, token: string): (r: Step<()>)
    ensures r.result.Ok? <==> token in st.sessions
    ensures r.result.Err? ==> r.result.error.Other? && r.store == st
    ensures r.store.sessions.Keys == st.sessions.Keys - {token}
    ensures forall t :: t in r.store.sessions ==> r.store.sessions[t] == st.sessions[t]
    ensures r.store.users == st.users && r.store.products == st.products
    ensures r.store.photos == st.photos && r.store.blobs == st.blobs
  {
    if token in st.sessions then Step(Ok(()), st.(sessions := st.sessions - {token}))
    else Step(Err(Unexpected("Record to delete does not exist.")), st)
  }

  /** `validateAuth`: an unknown token is refused; a session whose expiry is
      strictly before `now` is deleted and refused; any other session is
      accepted without change. */
  function ValidateAuth(st: Store, token: string, now: int): (r: Step<()>)
    ensures r.result.Ok? <==> token in st.sessions && st.sessions[token].expiresAt >= now
    ensures r.result == Err(App(TokenDoesNotExist)) <==> token !in st.sessions
    ensures r.result == Err(App(TokenExpired)) <==>
      token in st.sessions && st.sessions[token].expiresAt < now
    ensures r.result.Ok? || r.result == Err(App(TokenDoesNotExist)) || r.result == Err(App(TokenExpired))
    ensures r.result == Err(App(TokenExpired)) ==> r.store == st.(sessions := st.sessions - {token})
    ensures r.result != Err(App(TokenExpired)) ==> r.store == st
  {
    if token !in st.sessions then Step(Err(App(TokenDoesNotExist)), st)
    else if st.sessions[token].expiresAt < now then
      Step(Err(App(TokenExpired)), st.(sessions := st.sessions - {token}))
    else Step(Ok(()), st)
  }

  // -----------------------------------------------------------------------
  // The session lifecycle
  // -----------------------------------------------------------------------

  /** Lazy expiry reports an expired token once: the first validation deletes
      the session, so every later one finds no token at all. */
  lemma ExpiredTokenReportedOnce(st: Store, token: string, now: int, later: int)
    requires token in st.sessions && st.sessions[token].expiresAt < now
    ensures ValidateAuth(st, token, now).result == Err(App(TokenExpired))
    ensures ValidateAuth(ValidateAuth(st, token, now).store, token, later).result
            == Err(App(TokenDoesNotExist))
  {
  }

  /** After a successful log-out the token no longer authenticates. */
  lemma LogOutRevokesToken(st: Store, token: string, now: int)
    requires LogOut(st, token).result.Ok?
    ensures ValidateAuth(LogOut(st, token).store, token, now).result == Err(App(TokenDoesNotExist))
  {
  }

  /** The session opened by a registration authenticates exactly up to and
      including its expiry instant, and is reported expired after it. */
  lemma RegisteredSessionLifetime(st: Store, email: string, password: string, hash: string -> string,
                                  now: int, userId: nat, token: string, t: int)
    requires token !in st.sessions && !HasUserId(st.users, userId)
    requires !HasUserEmail(st.users, email)
    ensures var after := Register(st, email, password, hash, now, userId, token).store;
      && (ValidateAuth(after, token, t).result.Ok? <==> t <= now + SessionLifetime)
      && (ValidateAuth(after, token, t).result == Err(App(TokenExpired)) <==> t > now + SessionLifetime)
  {
  }

  /** With bcrypt's guarantee that a password matches its own hash, the
      credentials just registered log in, and the new session belongs to the
      registered user. */
  lemma {:induction false} RegisterThenLogIn(st: Store, email: string, password: string,
                                             hash: string -> string, matches: (string, string) -> bool,
                                             now: int, userId: nat, token: string,
                                             later: int, token2: string)
    requires forall p :: matches(p, hash(p))
    requires token !in st.sessions && !HasUserId(st.users, userId)
    requires !HasUserEmail(st.users, email)
    requires token2 != token && token2 !in st.sessions
    ensures var st1 := Register(st, email, password, hash, now, userId, token).store;
      var r := LogIn(st1, Some(email), Some(password), matches, later, token2);
      && r.result.Ok?
      && r.store.sessions[token2] == Session(later + SessionLifetime, userId)
      && r.store.sessions[token] == st1.sessions[token]
  {
    var st1 := Register(st, email, password, hash, now, userId, token).store;
    var n := |st.users|;
    assert st1.users[n] == User(userId, email, hash(password));
    forall j | 0 <= j < n
      ensures !Selects(Some(email), st1.users[j])
    {
      assert st1.users[j] == st.users[j];
    }
    assert FirstUser(st1.users, Some(email)) == Some(n) by {
      var f := FirstUser(st1.users, Some(email));
      assert f.Some? by {
        assert Selects(Some(email), st1.users[n]);
      }
    }
  }

  // -----------------------------------------------------------------------
  // The store stays well formed
  // -----------------------------------------------------------------------

  lemma RegisterKeepsValid(st: Store, email: string, password: string, hash: string -> string,
                           now: int, userId: nat, token: string)
    requires Valid(st)
    requires token !in st.sessions && !HasUserId(st.users, userId)
    ensures Valid(Register(st, email, password, hash, now, userId, token).store)
  {
    var r := Register(st, email, password, hash, now, userId, token);
    if !HasUserEmail(st.users, email) {
      var us := r.store.users;
      var n := |st.users|;
      forall t | t in r.store.sessions
        ensures HasUserId(us, r.store.sessions[t].createdById)
      {
        if t == token {
          assert us[n].id == userId;
        } else {
          var i :| 0 <= i < n && st.users[i].id == st.sessions[t].createdById;
          assert us[i] == st.users[i];
        }
      }
      forall i, j | 0 <= i < j < |us|
        ensures us[i].id != us[j].id && us[i].email != us[j].email
      {
        if j == n {
          assert us[i] == st.users[i];
        } else {
          assert us[i] == st.users[i] && us[j] == st.users[j];
        }
      }
    }
  }

  lemma LogInKeepsValid(st: Store, email: Option<string>, password: Option<string>,
                        matches: (string, string) -> bool, now: int, token: string)
    requires Valid(st) && token !in st.sessions
    ensures Valid(LogIn(st, email, password, matches, now, token).store)
  {
  }

  lemma LogOutKeepsValid(st: Store, token: string)
    requires Valid(st)
    ensures Valid(LogOut(st, token).store)
  {
  }

  lemma ValidateAuthKeepsValid(st: Store, token: string, now: int)
    requires Valid(st)
    ensures Valid(ValidateAuth(st, token, now).store)
  {
  }
}
